=== FILE: README.md ===
# Helios storefront: a verified model of its decision logic

Helios is a Django storefront where independent sellers list products. The
platform keeps a 15% commission on every order line. It sends 10% of that
commission to an impact fund, and it notifies admins, sellers and customers
when an order is placed. This project models in Dafny the parts of the
storefront that decide and compute, and proves properties of them:

- the order status machine:
  - the guarded transitions of `update_order_status`;
  - the timestamping of `Order.update_status`;
  - the pre-save hook;
  - the unguarded status writes of the seller detail page and the admin
    dashboards;
  - the unguarded write of `cancel_order`, a view that no request reaches,
    because its URL pattern is commented out (payment/urls.py:22);
- the money arithmetic:
  - line commission in `OrderItem.save`;
  - seller earnings;
  - line pricing and impact allocation in `process_order`;
  - seller and admin totals;
  - the export totals;
- the notification fan-out of `send_order_notifications`:
  - grouping the lines by seller;
  - admin recipients;
  - the per-seller choice between email, in-app notice and escalation;
  - the customer address;
  - running the planned attempts with each failure contained in its block;
- the access and redirect rules:
  - `seller_required`;
  - `notification_open`;
  - `mark_all_notifications_read`;
  - the dashboard status filters;
  - the newsletter redirect;
  - the impact progress bar;
  - the public seller page;
  - the category page;
  - the two context processors;
- the session cart (`Cart.__init__`, `add`, `__len__`) exactly as written.

Money is exact:
- Amounts are integer cents.
- Commission rates are integers in ten-thousandths (1500 is 0.15).
- An unrounded commission `price * quantity * rate` is an integer in
  millionths of the currency unit.
- `quantize(Decimal('0.01'))` is `Money.RoundHalfEven(x, 10000)`, the
  default context's half-to-even rounding.

The database is an in-memory value:
- orders are a map from primary key to `Order`;
- lines, notifications and ledger rows are sequences.

`timezone.now()` is an input timestamp. Whether each email or notification
succeeds is an input oracle.

Where the repository's written description of the behaviour and its code
disagree, the model follows the code:

- **Fan-out isolation is per block.** It is not per recipient:
  - All in-app notices to superusers sit inside one `try`, so the first
    failure skips the rest of that loop. Each email and each seller's notice
    block is its own block (`Fanout.FailureEndsBlock`, `Fanout.BlocksIsolated`).
- **A seller with a linked user gets both** an email and an in-app notice.
  It is not one or the other. Escalation to the superusers happens only for
  the line group without a seller (`Fanout.EscalationOnlyForUnattributed`).
- **`pending → processing` is allowed** by the guarded table.
- **Unguarded status writes.** Only `update_order_status` checks the
  transition table. The following write the status directly:
  - the admin dashboards, which can move shipped → processing and
    cancelled → shipped;
  - the seller detail page, which can do so for a seller whose profile is
    inactive;
  - `cancel_order`, which has no access check at all. It is unrouted: its
    URL pattern is commented out (payment/urls.py:22), so this write is
    latent, and it becomes reachable only if the route is restored.

  `OrderActions.ShippedDashBypassesGuard` and its three siblings state each
  case.
- **The public fund total ignores `is_active`** on ledger rows
  (`StoreViews.DeactivatedStillCounted`).
- **Export totals match the seller detail page only at the standard rate.**
  - The seller detail page computes net as quantized subtotal minus
    quantized commission.
  - The admin page and the export quantize the difference.
  - The two agree when every rate is 0.15 (`SellerTotals.NetsAgreeAtStandardRate`)
    and may differ by a cent otherwise (`SellerTotals.NetsMayDiffer`).

## Model

| member | source | states |
|---|---|---|
| Money.RoundHalfEven | backend/ecom/payment/models.py:260 | `quantize` with the default context: the result is within half a unit of the exact quotient, and on an exact tie it is even |
| Text.ParseInt | backend/ecom/payment/views.py:580 | `int()` on text: accepts only a (possibly signed) numeral, padded only by the whitespace `int()` skips (C whitespace, or non-ASCII `isspace()` characters), whose last character is a decimal digit of any script, and a negative result only from a leading minus |
| Text.IntToStringRoundTrip | backend/ecom/cart/cart.py:13 | a key written by `str()` is read back by `int()` as the same integer |
| Text.IntSkipsSpaces | backend/ecom/payment/views.py:433-436 | `int()` reads a numeral padded with tab and newline, or preceded by the ideographic space U+3000 |
| Text.IntRejectsSeparators | backend/ecom/payment/views.py:433-436 | `int()` rejects a numeral next to the separators U+001C or U+001F, which `strip()` removes |
| Text.OtherScriptDigitsParse | backend/ecom/payment/views.py:433-436 | digits of other scripts count as `int()` reads them: fullwidth one is 1 and Arabic-Indic one-zero, negated, is -10 |
| Seqs.FilterKeepsCopies | backend/ecom/payment/views.py:164 | a filter keeps every copy of a kept row, so equal lines are each counted, and keeps nothing that was not there |
| PaymentModels.ParseStatus | backend/ecom/payment/models.py:153-160 | a status code is accepted exactly when it is one of the six `ORDER_STATUS` keys, and parsing gives back the status with that code |
| PaymentModels.StatusCodeRoundTrip | backend/ecom/payment/models.py:153-160 | every status's code parses back to that status |
| PaymentModels.UpdateStatus | backend/ecom/payment/models.py:197-213 | an unknown code is an error and changes nothing; otherwise the status becomes the code, only the date slot of the new status may change, an existing date is never overwritten, the new status's date is always set afterwards, and a changed date is `now` |
| PaymentModels.UpdateStatusStampsAtMostOne | backend/ecom/payment/models.py:204-211 | at most one `date_*` field differs after a call, and none for pending or cancelled |
| PaymentModels.PreSave | backend/ecom/payment/models.py:216-226 | the hook changes only `date_shipped`, and changes it (to `now`) exactly when the order is persisted, its stored status is not shipped, the new status is shipped and the date is empty |
| PaymentModels.UpdateStatusMakesHookIdle | backend/ecom/payment/models.py:197-226 | after `update_status` the pre-save hook finds nothing left to do |
| PaymentModels.SaveItem | backend/ecom/payment/models.py:252-262 | the product's seller, when it has one, replaces the line's seller, otherwise the line's seller is kept; the commission is the half-even rounding of price × quantity × rate to the cent; no other field changes |
| PaymentModels.SaveItemIdempotent | backend/ecom/payment/models.py:252-262 | saving a line twice gives the same line as saving it once |
| PaymentModels.SellerEarnings | backend/ecom/payment/models.py:266-268 | earnings plus stored commission equal price × quantity |
| PaymentModels.EarningsNearExactNet | backend/ecom/payment/models.py:258-268 | after a save, earnings are within half a cent of the unrounded net of commission |
| PaymentModels.SellerItemsOfOrder | backend/ecom/payment/views.py:187-190 | exactly the lines of the order sold by the seller are kept |
| PaymentModels.HasItemsOfMeans | backend/ecom/payment/views.py:836 | the ownership test holds iff some line of the order is sold by that seller |
| SellerTotals.SellerViewTotals | backend/ecom/payment/views.py:187-201 | seller view: subtotal is Σ price × quantity, commission is the half-even cent rounding of Σ price × quantity × rate, and net + commission = subtotal |
| SellerTotals.FullViewTotals | backend/ecom/payment/views.py:164-173 | admin view and export: same subtotal and commission, and net is the cent rounding of the unrounded subtotal − commission |
| SellerTotals.UniformRateCommission | backend/ecom/payment/views.py:187-201 | when every line has the same rate, the unrounded commission is the subtotal times that rate |
| SellerTotals.NetsAgreeAtStandardRate | backend/ecom/payment/views.py:187-201 | at the standard 0.15 rate the two ways of computing net agree |
| SellerTotals.NetsMayDiffer | backend/ecom/payment/views.py:187-201 | a single line at another rate gives nets one cent apart between the two views |
| Decorators.SellerRequired | backend/ecom/payment/decorators.py:6-19 | the view runs, with the same request, iff the user is logged in with an active seller profile; an inactive profile is sent home; no login or no profile is sent to the seller login |
| OrderActions.GuardedTarget | backend/ecom/payment/views.py:844-870 | processing only from paid or pending, shipped only from processing, delivered only from shipped, cancelled from anything but delivered or cancelled, and nothing else; the target's code is the action |
| OrderActions.GuardedNeverRegresses | backend/ecom/payment/views.py:844-870 | a guarded move never keeps the status, never moves backwards except into cancelled, and nothing leaves delivered or cancelled |
| OrderActions.NormalizeAction | backend/ecom/payment/views.py:844 | a missing action is empty; the result has no surrounding whitespace and no capital letter; an action already in that form passes unchanged |
| OrderActions.MayUpdate | backend/ecom/payment/views.py:827-841 | a superuser may update any order, and a seller exactly an order with a line they sold |
| OrderActions.FirstSuperuserWithEmail | backend/ecom/payment/views.py:879-883 | the first superuser whose email is the configured admin email, or none when no superuser has it |
| OrderActions.UpdateOrderStatusView | backend/ecom/payment/views.py:821-897 | a GET goes to the dashboard and a missing order is a 404; the body alone moves any order a superuser posts an allowed action for; a change needs a user allowed to update and an allowed action; a notice only follows a change |
| OrderActions.UpdateOrderStatus | backend/ecom/payment/views.py:814-896 | the order changes iff an active seller POSTs for an existing order they may update (superuser or owner of a line) with an allowed action; only status and, when shipping, the ship date change; after a change the first superuser with the configured admin email, when there is one, is sent a status-changed notice, and a notice is drafted only after a change; a refusal leaves every order untouched; a change always redirects back to the order detail page |
| OrderActions.SuperuserNeedsSellerProfile | backend/ecom/payment/views.py:814-842 | a superuser without a seller profile never reaches the superuser branch, because the decorator refuses them first |
| OrderActions.DetailTarget | backend/ecom/payment/views.py:204-212 | the detail page accepts exactly the four action codes and targets the status with that code |
| OrderActions.SellerOrderDetailView | backend/ecom/payment/views.py:149-233 | a seller POST with a line in the order and one of the four codes always writes that status, with no transition guard, stamping the ship date when shipping, and redirects to the page; nothing else writes; a superuser sees the admin totals of the order's lines, and an order with no lines is a server error for them; an anonymous user is sent to login and a missing order is a 404; a member who is not a superuser and has no seller profile, or no line in the order, is refused with a 403; a seller GET with own lines renders the seller totals of exactly those lines; a seller POST with an unknown action redirects to the page and changes nothing |
| OrderActions.LookupPostedRejectsSeparator | backend/ecom/payment/views.py:433-436 | an order number next to U+001C fails as `int()` does (a server error), while the same number after a tab finds its order |
| OrderActions.LookupPosted | backend/ecom/payment/views.py:433-436 | the posted `num` fails with an error iff it is present and not an integer; a non-negative key in the table finds its order |
| OrderActions.NotShippedDashPost | backend/ecom/payment/views.py:426-454 | a non-superuser is sent home with nothing changed; `ship` sets shipped with the date, and `cancel` sets cancelled with the reason, from any status; a non-integer `num` is a server error, and every other superuser POST redirects back to the dashboard |
| OrderActions.ShippedDashPost | backend/ecom/payment/views.py:473-498 | a non-superuser is sent home; `deliver` sets delivered and `process` sets processing from any status; a non-integer `num` is a server error, and every other superuser POST redirects back to the dashboard |
| OrderActions.CancelOrder | backend/ecom/payment/views.py:790-810 | unrouted view (its URL pattern at payment/urls.py:22 is commented out); if called, a GET redirects to the detail page, a POST for a missing order is a 404, and otherwise the order is cancelled with the seller note whatever its status |
| OrderActions.ShippedDashBypassesGuard | backend/ecom/payment/views.py:488-490 | the shipped dashboard moves a shipped order back to processing, a move the guarded table refuses |
| OrderActions.NotShippedDashShipsCancelled | backend/ecom/payment/views.py:437-440 | the unshipped dashboard ships a cancelled order, a move the guarded table refuses |
| OrderActions.CancelOrderBypassesGuard | backend/ecom/payment/views.py:799-801 | the unrouted `cancel_order` would cancel a delivered order, a move the guarded table refuses; the bypass is latent while payment/urls.py:22 stays commented out |
| OrderActions.DetailPageBypassesGuard | backend/ecom/payment/views.py:204-212 | the detail page lets a seller with an inactive profile move a delivered order to processing |
| OrderActions.ExportTotals | backend/ecom/payment/views.py:696-786 | an anonymous user is sent to login and a missing order is a 404; a superuser gets the admin totals of all lines, a seller with lines in the order gets the same formula over their own lines, and anyone else is refused with a 403; an exported line without a product is a server error, because the text names each line's product |
| OrderActions.ExportMatchesDetailAtStandardRate | backend/ecom/payment/views.py:696-786 | a seller's export succeeds iff each of their lines has a product, and then, at the standard rate, its totals equal those their detail page shows |
| Dashboards.NotShippedFilter | backend/ecom/payment/views.py:456-464 | `cancelled` lists cancelled orders, `all` lists every status except shipped and delivered, and anything else, including no filter, lists paid and processing |
| Dashboards.ShippedFilter | backend/ecom/payment/views.py:500-508 | `delivered` and `shipped` select that status, and anything else selects both |
| Dashboards.DashboardsPartitionStatuses | backend/ecom/payment/views.py:456-508 | the `all` view of the unshipped dashboard and the default shipped view split the statuses between them, and no two filters of the two dashboards overlap |
| Dashboards.NotShippedDashGet | backend/ecom/payment/views.py:426-470 | only a superuser gets a list, and it holds exactly the orders whose status the filter selects |
| Dashboards.ShippedDashGet | backend/ecom/payment/views.py:473-514 | only a superuser gets a list, and it holds exactly the orders whose status the filter selects |
| Dashboards.DashboardsListEveryOrderOnce | backend/ecom/payment/views.py:456-508 | together the two dashboards' default listings hold every order exactly once |
| Dashboards.DashboardItems | backend/ecom/payment/views.py:325-345 | the seller dashboard lists exactly the seller's lines whose order has the requested status, or all of them for `all` |
| Dashboards.UnknownStatusShowsNothing | backend/ecom/payment/views.py:337-338 | a status filter that is not a known code shows no lines |
| Dashboards.DashboardFigures | backend/ecom/payment/views.py:351-380 | each listed order's subtotal and commission are computed over the shown lines of that order and rounded to the cent |
| Dashboards.SellerDashboard | backend/ecom/payment/views.py:325-389 | the dashboard renders iff the decorator admits the user, and then lists that seller's lines |
| Dashboards.DashboardAgreesWithDetail | backend/ecom/payment/views.py:187-201 | the unfiltered dashboard shows the same subtotal and commission for an order as the seller detail page |
| Checkout.UnitPrice | backend/ecom/payment/views.py:574 | the sale price when the product is on sale with a non-zero sale price, else the list price |
| Checkout.NewLine | backend/ecom/payment/views.py:587-589 | a new line carries the order, product, buyer, quantity, unit price, the 0.15 rate, the product's seller and the rounded commission |
| Checkout.LinesFor | backend/ecom/payment/views.py:578-590 | a product gets one line per cart key that parses to its id, in key order, with that key's quantity |
| Checkout.Lines | backend/ecom/payment/views.py:572-590 | the order's lines are the products' lines in product order |
| Checkout.UnnamedProductGetsNoLine | backend/ecom/payment/views.py:579-584 | a product no integer key names gets no line, and keys that are not integers are skipped |
| Checkout.LineImpact | backend/ecom/payment/views.py:592-594 | a line's impact is the half-even cent rounding of 10% of its cent-rounded 15% commission on the subtotal, and is non-negative for a non-negative price |
| Checkout.LineImpactFromStoredCommission | backend/ecom/payment/views.py:592-594 | the impact equals 10% of the commission the saved line stores, rounded to the cent |
| Checkout.HundredTimesTwo | backend/ecom/payment/views.py:592-594 | worked example: two units at 100.00 give a commission of 30.00 and an impact of 3.00 |
| Checkout.TotalImpact | backend/ecom/payment/views.py:595 | the total impact of lines with non-negative prices is non-negative |
| Checkout.BuildLinesFor | backend/ecom/payment/views.py:578-595 | the inner loop builds exactly the product's lines and sums their impacts |
| Checkout.BuildLines | backend/ecom/payment/views.py:572-595 | the outer loop builds exactly the order's lines, all belonging to the order and to listed products, and sums their impacts |
| Checkout.ProcessOrder | backend/ecom/payment/views.py:520-629 | a POST places a paid order with no dates stamped, owned by the logged-in user, with exactly the computed lines; a ledger row of kind commission and the total impact is written iff that total is positive; every request ends at home |
| Fanout.GroupBySeller | backend/ecom/payment/email_utils.py:80-87 | groups have distinct keys; each key's group holds, in input order, exactly the lines whose seller key (line seller, else product seller, else none) is that key; a key has a group iff some line has it; and the group subtotals add up to the order's |
| Fanout.EveryLineGrouped | backend/ecom/payment/email_utils.py:80-87 | every line is in the group of its own key |
| Fanout.LineInNoOtherGroup | backend/ecom/payment/email_utils.py:80-87 | a line found in a group is a line of the order with that group's key, so it is in no other group |
| Fanout.GroupKeysDistinct | backend/ecom/payment/email_utils.py:80-87 | no two groups share a key |
| Fanout.Breakdown | backend/ecom/payment/email_utils.py:123-131 | the breakdown has one entry per group that has a seller, in group order, with that group's Σ price × quantity and Σ price × quantity × rate |
| Fanout.BreakdownCoversSellers | backend/ecom/payment/email_utils.py:123-131 | every group with a seller has an entry holding its totals |
| Fanout.BreakdownOnlySellers | backend/ecom/payment/email_utils.py:123-131 | every entry comes from a group with that seller and holds its totals |
| Fanout.Superusers | backend/ecom/payment/email_utils.py:142 | exactly the superusers are selected |
| Fanout.AdminRecipients | backend/ecom/payment/email_utils.py:136-144 | an address is a recipient iff it is the configured admin email or a non-empty superuser email; as a set it holds no duplicates |
| Fanout.ChooseNotice | backend/ecom/payment/email_utils.py:206-224 | the notice goes to the linked user if there is one, escalates to the superusers iff there is neither a user nor an email, and is skipped otherwise |
| Fanout.EscalationOnlyForUnattributed | backend/ecom/payment/email_utils.py:178-224 | the seller has no `email` attribute and always has a user, so escalation happens exactly for the group without a seller; a seller is emailed iff their user's email is non-empty |
| Fanout.CustomerAddress | backend/ecom/payment/email_utils.py:229-231 | the order's email, else the ordering user's email, and none when both are empty |
| Fanout.AdminBlocks | backend/ecom/payment/email_utils.py:146-170 | the admin email is attempted only when the recipient set is non-empty, and one notice block reaches every superuser |
| Fanout.SellerBlocks | backend/ecom/payment/email_utils.py:172-224 | a seller gets an email block iff they have an address; the last block is one notice to the linked user when there is one, or a notice to each superuser on escalation |
| Fanout.CustomerBlocks | backend/ecom/payment/email_utils.py:226-248 | the customer email is attempted iff there is an address |
| Fanout.Plan | backend/ecom/payment/email_utils.py:89-110 | the admin email, when there are recipients, comes first; the admin notice block closes the admin part; the customer email, when there is an address, is last, and otherwise the customer gets nothing; everything between the admin part and the customer part is the seller groups' blocks, in group order |
| Fanout.AllSellerBlocksAppend | backend/ecom/payment/email_utils.py:103-104 | the blocks of two runs of seller groups are the first run's blocks followed by the second's |
| Fanout.SellerBlocksInOrder | backend/ecom/payment/email_utils.py:103-104 | group i's blocks appear unchanged right after the blocks of the groups before it |
| Fanout.RunFrom | backend/ecom/payment/email_utils.py:148-170 | within a block attempts run in order until the first failure, which ends the block |
| Fanout.Run | backend/ecom/payment/email_utils.py:89-110 | every block is run, each from its own start |
| Fanout.BlocksIsolated | backend/ecom/payment/email_utils.py:89-110 | a block's outcome depends only on its own attempts' results, so a failure elsewhere never stops it |
| Fanout.FailureEndsBlock | backend/ecom/payment/email_utils.py:166-170 | after a failed attempt no later attempt of the same block runs |
| Fanout.PlanMailCount | backend/ecom/payment/email_utils.py:89-248 | the plan sends one admin email if there are recipients, one email per emailable seller group and one customer email if there is an address |
| Fanout.TwoSellerOrderSendsFourEmails | backend/ecom/payment/email_utils.py:89-248 | an order from two sellers with addresses, with an admin address and a customer address, plans four emails |
| Fanout.CustomerReachedRegardless | backend/ecom/payment/email_utils.py:99-107 | the customer email is attempted whatever happens to the admin and seller attempts |
| NotificationViews.FindNotice | backend/ecom/payment/views.py:73-76 | the row found has the requested id and belongs to the user, and none is found only when no such row exists |
| NotificationViews.OpenTarget | backend/ecom/payment/views.py:84-126 | no link or a missing order goes to the list; otherwise a seller with lines in the order goes to the dashboard, else a superuser to the admin order page, else the order's customer home, else the list |
| NotificationViews.NotificationOpen | backend/ecom/payment/views.py:62-134 | an anonymous user is sent to login; someone else's or a missing notification is a 403 and changes nothing; otherwise only that row is marked read and the user is redirected by role |
| NotificationViews.NotificationOpenIdempotent | backend/ecom/payment/views.py:78-81 | opening a notification twice has the same effect and redirect as opening it once |
| NotificationViews.MarkAllRead | backend/ecom/payment/views.py:137-144 | anything but a POST is a 400 and changes nothing; a POST marks every notification of the user read and leaves others' as they were |
| NotificationViews.MarkAllReadClearsBadge | backend/ecom/payment/views.py:137-144 | after marking all read the user's unread count is 0 and the list is empty |
| NotificationViews.UnreadOf | backend/ecom/ecom/context_processors.py:25-30 | exactly the user's unread notifications |
| NotificationViews.UnreadContext | backend/ecom/ecom/context_processors.py:22-38 | an anonymous user gets 0 and no list; otherwise the count is all unread notifications of the user and the list holds min(count, 5) of them, newest first |
| NotificationViews.BadgeShowsNewest | backend/ecom/ecom/context_processors.py:25-28 | the list is the head of the user's unread notifications sorted newest first, so none left out is newer than one shown |
| NotificationViews.NewsletterFormShown | backend/ecom/ecom/context_processors.py:10-20 | the form is offered iff the request does not carry a true `disable_newsletter` |
| Cart.InitCart | backend/ecom/cart/cart.py:2-10 | an existing cart is reused untouched; a missing one is stored empty and marks the session modified |
| Cart.InitCartStable | backend/ecom/cart/cart.py:2-10 | building a cart twice is building it once; a new cart is empty, and an existing one keeps its products and length |
| Cart.Len | backend/ecom/cart/cart.py:22-23 | the length is the number of distinct keys |
| Cart.Add | backend/ecom/cart/cart.py:12-20 | a new product is stored under `str(id)` with its price as text, marks the session modified and grows the length by one; a present product leaves the session as it was; other entries never change |
| Cart.AddIdempotent | backend/ecom/cart/cart.py:12-20 | adding a product twice equals adding it once |
| Cart.CartKeys | backend/ecom/cart/cart.py:12-20 | from a fresh cart the keys are exactly those of the added products |
| Cart.CartCountsDistinctProducts | backend/ecom/cart/cart.py:12-23 | from a fresh cart the length is the number of distinct product ids added |
| StoreViews.NewsletterSubscribe | backend/ecom/store/views.py:51-75 | unrouted view (no pattern in any urls.py); if called, a GET goes home and stores nothing; a POST goes home when the referer (default `/`) contains a cart or checkout page name, and back to the referer otherwise, whether or not the form is valid; only a valid form is saved |
| StoreViews.NewsletterNeverReturnsToCheckout | backend/ecom/store/views.py:61-64 | a sign-up from a checkout page always lands home |
| StoreViews.TotalFunds | backend/ecom/store/views.py:101-105 | the aggregate over the ledger, zero when empty, is never negative when no row is |
| StoreViews.TotalFundsOnlyAmounts | backend/ecom/store/views.py:101-105 | the fund total depends only on the rows' signed amounts |
| StoreViews.DeactivatedStillCounted | backend/ecom/store/views.py:101-105 | deactivating a ledger row leaves the published total unchanged |
| StoreViews.CheckoutRaisesFunds | backend/ecom/payment/views.py:598-605 | the row written at checkout raises the fund total by exactly the order's positive impact |
| StoreViews.ProgressPercent | backend/ecom/store/views.py:114-118 | progress is the share of the 100000.00 goal, capped at 100, rounded to a whole percent half to even |
| StoreViews.ProgressMonotonic | backend/ecom/store/views.py:114-118 | a larger total never shows less progress |
| StoreViews.ProgressFullExactly | backend/ecom/store/views.py:114-118 | the bar shows 100 exactly from 99500.00 on, since 99.5 rounds half-even to 100 |
| StoreViews.PublicImpact | backend/ecom/store/views.py:87-129 | the page counts the active sellers, shows the ledger total and 20 installations, and the progress of that total |
| StoreViews.ProductList | backend/ecom/store/views.py:145-146 | a list holds exactly the seller's available products with the given sale flag, as a permutation of those rows, ordered by id descending |
| StoreViews.SellerProfilePublic | backend/ecom/store/views.py:133-152 | a missing or inactive seller is sent home; otherwise the page shows that seller with the non-sale and sale lists |
| StoreViews.SellerListsPartition | backend/ecom/store/views.py:145-146 | no product is in both lists, and each available product of the seller is in one |
| StoreViews.NewProductUnlisted | backend/ecom/store/views.py:145-146 | a product created with its defaults appears in neither list of any seller, and its checkout unit price is 0 |
| StoreViews.CategoryName | backend/ecom/store/views.py:277 | every hyphen becomes a space and every other character is kept |
| StoreViews.CategoryView | backend/ecom/store/views.py:276-284 | one category of that name renders exactly its products; none redirects home; several raise an uncaught error |
| StoreViews.SlugAndSpacesAgree | backend/ecom/store/views.py:277 | a slug and its spaced form show the same page |
| StoreModels.NewProduct | backend/ecom/store/models.py:68-85 | a new product is not on sale, has sale price 0, is available, has no seller and is in category 1 |
| StoreModels.NewProductUnaffectedByDeleteSeller | backend/ecom/store/models.py:79-85 | a product with the default (no) seller is untouched by deleting any seller |
| StoreModels.DeleteSeller | backend/ecom/store/models.py:79-85 | deleting a seller clears the seller of exactly that seller's products and keeps every other field and product |
| StoreModels.BusinessEmail | backend/ecom/store/models.py:35-38 | in debug the test address; otherwise the business email if non-empty, else the user's email |
| StoreModels.BusinessEmailEntered | backend/ecom/store/models.py:35-38 | outside debug the address is the business or account address, and empty only when both are; in debug it is never empty |
| StoreModels.UserDirectoryPath | backend/ecom/store/models.py:8-9 | the path is `profile_pics/user_<id>/<filename>` |
| StoreModels.UserDirectoryPathInjective | backend/ecom/store/models.py:8-9 | two users never share an upload path for the same file name |

## Left out

- Search on the admin dashboards and the `order_by` on dates are left out. Listings keep table order. Search is free-text ORM matching, and sorting by date adds nothing to which orders are shown.
- Messages, templates and rendering are left out: flash messages, email bodies and subjects, notification text (`NoticeDraft` keeps recipient, kind and order only), and the text layout of `export_order_details`. This is presentation only, except that the layout reads each line's product name; the model keeps that crash (`OrderActions.ExportTotals`).
- The ORM, `transaction.atomic` and `get_object_or_404` become operations on in-memory maps and sequences. Exceptions that escape unprotected code become `ServerError`: a non-integer `num` on the dashboards, several categories with one name, the superuser's detail page for an order with no lines, where `sum()` without a start value gives the integer 0, which has no `quantize`, and an export with a line saved without a product (the field is nullable and the admin inline allows it), where `item.product.name` fails.
- The `Decimal` context precision of 28 digits is not modelled. Amounts are unbounded integers. `max_digits` on the model fields, which the database enforces on save, is not modelled either.
- StoreViews.ProgressPercent: does not model the `except` branch that yields 0. It is reached only when the total has over 28 significant digits, which no ledger of ten-digit amounts can reach.
- OrderActions.NormalizeAction: lower-cases ASCII letters only, where Python's `lower()` covers all of Unicode. No non-ASCII character lower-cases to a letter of an action word, so the outcomes are the same.
- Text.ParseInt: reads the decimal digits of Unicode 15.0, the database of recent Python releases; a Python built on a later Unicode version accepts the digits added since. It also accepts numerals of any length, while Python 3.11 and later refuse more than 4300 digits by default; the limit depends on the interpreter version and its configuration (`sys.set_int_max_str_digits`), so the model reads such a numeral as its value where Python raises ValueError.
- OrderActions.LookupPosted: inherits the gap above; a posted `num` of more than 4300 digits finds no order here, where Python 3.11 and later answer with a server error.
- Email and notification delivery are an oracle of success per attempt. This covers `create_notification` and SMTP transport. Logging is dropped.
- Line quantities are natural numbers. `int(value)` in `process_order` could read a negative quantity from the cart, and that case is not modelled.
- The cart views, the cart context processor and the quantity-merging cart are left out. `process_order`'s `cart_total`, `get_prods` and `get_quants` calls name methods that `cart.py` does not define. The cart contents `process_order` reads are an input list of key/quantity pairs.
- Cart.Add: requires the session to hold a cart. That always holds after `Cart.__init__` (`InitCart`). A session value that is present but not a dictionary is not modelled.
- Checkout.ProcessOrder: models the POST path as if the cart supplied its products and quantities. The `Cart` class as written defines neither `get_prods` nor `get_quants`, so that path as written stops at line 531. Clearing the cart afterwards is not modelled.
- `process_order`'s form validation, shipping address, `amount_paid` (an input here) and the call to `send_order_notifications` are left out of `Checkout.ProcessOrder`. The fan-out is modelled separately by `Fanout.Plan`.
- `notifications_list_view`, the donation page, product and home pages, login, registration, activation and the profile forms are left out as framework flows with no decision logic beyond the ORM.
- Forms, URL routing, the admin site and the client-side script are framework wiring.

=== FILE: accounts.dfy ===
/**
 * Accounts: the authentication user and the seller profile attached to it
 * (`auth.User` and `payment.models.Seller`, payment/models.py:114-146).
 */
module Accounts {
  import opened Base

  /** An `auth.User` row; `email` is `""` when the user left it blank. */
  datatype User = User(id: nat, username: string, email: string, isSuperuser: bool)

  /**
   * A seller profile. Its `user` link is a required one-to-one field, and the
   * model has `business_email` but no attribute called `email`.
   */
  datatype Seller = Seller(id: nat, user: User, businessName: Option<string>, businessEmail: Option<string>, isActive: bool)

  /**
   * `request.user` as the views see it: anonymous, or a logged-in user with
   * the reverse one-to-one `seller_profile` present or absent.
   */
  datatype Principal = Anonymous | Member(user: User, sellerProfile: Option<Seller>)

  /** Django compares model instances by primary key. */
  predicate SameUser(a: User, b: User)
  {
    a.id == b.id
  }

  predicate IsSuperuser(p: Principal)
  {
    p.Member? && p.user.isSuperuser
  }
}

=== FILE: base.dfy ===
/** Failure-carrying wrappers shared by every module of the model. */
module Base {

  /** A value that may be absent: Python's `None` or a nullable database column. */
  datatype Option<+T> = None | Some(value: T)

  /** The outcome of an operation that raises on bad input. */
  datatype Result<+T, +E> = Ok(value: T) | Err(error: E)

  /** Python truthiness of an optional string: `None` and `""` are both false. */
  predicate Truthy(s: Option<string>)
  {
    s.Some? && s.value != ""
  }
}

=== FILE: cart.dfy ===
/**
 * The session cart of cart/cart.py: a dictionary in the session, keyed by
 * the product id as text, holding the product's price as text.
 */
module Cart {
  import opened Base
  import opened Text
  import opened StoreModels

  /** The value stored per product: `{'price': str(product.price)}`. */
  datatype CartEntry = CartEntry(price: string)

  /**
   * The parts of the session the cart touches: the `session_key` entry
   * (None while absent) and the session's `modified` flag.
   */
  datatype Session = Session(cart: Option<map<string, CartEntry>>, modified: bool)

  /** A session whose cart entry is present. */
  predicate HasCart(s: Session)
  {
    s.cart.Some?
  }

  /** `Cart.__init__`: an absent cart entry is created empty, which marks the session modified. */
  function InitCart(s: Session): (r: Session)
    ensures HasCart(r)
    ensures HasCart(s) ==> r == s
    ensures !HasCart(s) ==> r.cart == Some(map[]) && r.modified
  {
    if s.cart.None? then Session(Some(map[]), true) else s
  }

  /**
   * Building a `Cart` twice on one session is building it once: a session
   * without a cart starts with an empty one, and an existing cart keeps all
   * its products.
   */
  lemma InitCartStable(s: Session)
    ensures InitCart(InitCart(s)) == InitCart(s)
    ensures !HasCart(s) ==> Len(InitCart(s)) == 0
    ensures HasCart(s) ==> InitCart(s).cart.value == s.cart.value && Len(InitCart(s)) == Len(s)
  {
  }

  /** The dictionary key of a product: `str(product.id)`. */
  function KeyOf(p: Product): string
  {
    IntToString(p.id)
  }

  /** `len(cart)`: the number of distinct products in it. */
  function Len(s: Session): (n: nat)
    requires HasCart(s)
    ensures n == |s.cart.value.Keys|
  {
    |s.cart.value|
  }

  /**
   * `Cart.add`: a product not yet in the cart is stored with its price and
   * the session marked modified; a product already there leaves the session
   * exactly as it was.
   */
  function Add(s: Session, p: Product): (r: Session)
    requires HasCart(s)
    ensures HasCart(r)
    ensures KeyOf(p) in r.cart.value
    ensures KeyOf(p) in s.cart.value ==> r == s
    ensures KeyOf(p) !in s.cart.value ==>
              && r.modified
              && r.cart.value[KeyOf(p)] == CartEntry(CentsToString(p.price))
              && Len(r) == Len(s) + 1
    ensures forall k :: k != KeyOf(p) ==> (k in r.cart.value <==> k in s.cart.value)
    ensures forall k :: k in s.cart.value ==> k in r.cart.value && r.cart.value[k] == s.cart.value[k]
  {
    var key := KeyOf(p);
    if key in s.cart.value then s
    else Session(Some(s.cart.value[key := CartEntry(CentsToString(p.price))]), true)
  }

  /** Adding the same product twice is the same as adding it once. */
  lemma AddIdempotent(s: Session, p: Product)
    requires HasCart(s)
    ensures Add(Add(s, p), p) == Add(s, p)
  {
  }

  /** Adding products one after another, as repeated calls of `add` do. */
  function AddAll(s: Session, ps: seq<Product>): (r: Session)
    requires HasCart(s)
    ensures HasCart(r)
    decreases |ps|
  {
    if |ps| == 0 then s else Add(AddAll(s, ps[..|ps| - 1]), ps[|ps| - 1])
  }

  /** The ids of a list of products. */
  function Ids(ps: seq<Product>): set<nat>
  {
    set i | 0 <= i < |ps| :: ps[i].id
  }

  /** The dictionary keys of a list of products. */
  function KeysOf(ps: seq<Product>): set<string>
  {
    set i | 0 <= i < |ps| :: KeyOf(ps[i])
  }

  /** Splitting off the last product of a list. */
  lemma LastSplit(ps: seq<Product>)
    requires |ps| > 0
    ensures KeysOf(ps) == KeysOf(ps[..|ps| - 1]) + {KeyOf(ps[|ps| - 1])}
    ensures Ids(ps) == Ids(ps[..|ps| - 1]) + {ps[|ps| - 1].id}
  {
    var init := ps[..|ps| - 1];
    assert forall i :: 0 <= i < |init| ==> ps[i] == init[i];
  }

  /** Starting from a fresh cart, the keys are exactly those of the added products. */
  lemma {:induction false} CartKeys(s: Session, ps: seq<Product>)
    requires s.cart == Some(map[])
    ensures AddAll(s, ps).cart.value.Keys == KeysOf(ps)
    decreases |ps|
  {
    if |ps| > 0 {
      CartKeys(s, ps[..|ps| - 1]);
      LastSplit(ps);
    }
  }

  /** Two products share a key only when they share an id, so keys and ids are equally many. */
  lemma {:induction false} KeysCountIds(ps: seq<Product>)
    ensures |KeysOf(ps)| == |Ids(ps)|
    decreases |ps|
  {
    if |ps| > 0 {
      var init := ps[..|ps| - 1];
      var p := ps[|ps| - 1];
      KeysCountIds(init);
      LastSplit(ps);
      if KeyOf(p) in KeysOf(init) {
        var i :| 0 <= i < |init| && KeyOf(init[i]) == KeyOf(p);
        IntToStringInjective(init[i].id, p.id);
        assert KeysOf(ps) == KeysOf(init);
        assert Ids(ps) == Ids(init);
      } else {
        forall j | 0 <= j < |init|
          ensures init[j].id != p.id
        {
          assert KeyOf(init[j]) in KeysOf(init);
        }
        assert |KeysOf(ps)| == |KeysOf(init)| + 1;
        assert |Ids(ps)| == |Ids(init)| + 1;
      }
    }
  }

  /**
   * Starting from a fresh cart, the length counts the distinct product ids:
   * adding a product twice never counts it twice.
   */
  lemma CartCountsDistinctProducts(s: Session, ps: seq<Product>)
    requires s.cart == Some(map[])
    ensures Len(AddAll(s, ps)) == |Ids(ps)|
  {
    CartKeys(s, ps);
    KeysCountIds(ps);
  }
}

=== FILE: checkout.dfy ===
/**
 * The pricing, line creation and impact-fund arithmetic of `process_order`
 * (payment/views.py:520-605). The cart's product list and its
 * id-to-quantity mapping arrive as inputs; the new order's key and the
 * request's user are parameters.
 */
module Checkout {
  import opened Base
  import opened Money
  import opened Text
  import opened Accounts
  import opened StoreModels
  import opened PaymentModels
  import opened Seqs
  import opened Web

  /** `IMPACT_FUND_RATE`, 0.10, in 1/10000. */
  const ImpactFundRate: int := 1000

  /** The unit price charged: the sale price when the product is on sale with a non-zero sale price. */
  function UnitPrice(p: Product): (r: int)
    ensures p.isSale && p.salePrice != 0 ==> r == p.salePrice
    ensures !p.isSale || p.salePrice == 0 ==> r == p.price
  {
    if p.isSale && p.salePrice != 0 then p.salePrice else p.price
  }

  /** Whether a cart key, read with `int(key)`, names product `id`; unreadable keys name nothing. */
  function KeyIs(id: nat): ((string, nat)) -> bool
  {
    (kv: (string, nat)) => ParseInt(kv.0) == Some(id)
  }

  /** One new line, as saved: the item save copies the product's seller and computes the commission. */
  function NewLine(pk: nat, p: Product, user: Option<User>, quantity: nat): (it: OrderItem)
    ensures it.orderId == Some(pk) && it.product == Some(p) && it.user == user
    ensures it.quantity == quantity && it.price == UnitPrice(p) && it.commissionRate == DefaultCommissionRate
    ensures it.seller == p.seller
    ensures IsHalfEvenRounding(LineTotal(it) * DefaultCommissionRate, RateScale, it.commissionAmount)
  {
    SaveItem(OrderItem(Some(pk), Some(p), user, quantity, UnitPrice(p), DefaultCommissionRate, 0, None))
  }

  /** The lines made for one product: one per cart key that reads as its id, in key order. */
  function LinesFor(p: Product, quantities: seq<(string, nat)>, pk: nat, user: Option<User>): (r: seq<OrderItem>)
    ensures |r| == |Filter(quantities, KeyIs(p.id))|
    ensures forall i :: 0 <= i < |r| ==> r[i] == NewLine(pk, p, user, Filter(quantities, KeyIs(p.id))[i].1)
  {
    if |quantities| == 0 then []
    else
      var last := quantities[|quantities| - 1];
      LinesFor(p, quantities[..|quantities| - 1], pk, user) + (if KeyIs(p.id)(last) then [NewLine(pk, p, user, last.1)] else [])
  }

  /** All lines of the order: the cart's products in order, each with its lines. */
  function Lines(products: seq<Product>, quantities: seq<(string, nat)>, pk: nat, user: Option<User>): (r: seq<OrderItem>)
    ensures forall i :: 0 <= i < |r| ==>
              && r[i].orderId == Some(pk) && r[i].user == user && r[i].product.Some? && r[i].product.value in products
              && r[i].price == UnitPrice(r[i].product.value) && r[i].commissionRate == DefaultCommissionRate
  {
    if |products| == 0 then []
    else
      var prefix := Lines(products[..|products| - 1], quantities, pk, user);
      var more := LinesFor(products[|products| - 1], quantities, pk, user);
      assert forall i :: 0 <= i < |prefix| ==> prefix[i].product.value in products[..|products| - 1];
      prefix + more
  }

  /** A product that no cart key names gets no line. */
  lemma UnnamedProductGetsNoLine(p: Product, quantities: seq<(string, nat)>, pk: nat, user: Option<User>)
    requires forall i :: 0 <= i < |quantities| ==> ParseInt(quantities[i].0) != Some(p.id)
    ensures LinesFor(p, quantities, pk, user) == []
  {
    FilterNone(quantities, KeyIs(p.id));
  }

  /**
   * The impact allocation of one line: the line subtotal's commission at
   * 15% rounded to a cent, then 10% of that rounded to a cent again. A line
   * with a non-negative price never allocates a negative amount.
   */
  function LineImpact(price: int, quantity: nat): (r: int)
    ensures var c := RoundHalfEven(price * quantity * DefaultCommissionRate, RateScale);
            IsHalfEvenRounding(c * ImpactFundRate, RateScale, r)
    ensures price >= 0 ==> r >= 0
  {
    var subtotal := QuantizedSubtotal(price, quantity);
    var exact := subtotal * DefaultCommissionRate;
    var commission := RoundHalfEven(exact, RateScale);
    var r := RoundHalfEven(commission * ImpactFundRate, RateScale);
    assert price >= 0 ==> r >= 0 by {
      if price >= 0 {
        assert exact >= 0;
        RoundExact(0, RateScale);
        RoundMonotonic(0, exact, RateScale);
        RoundMonotonic(0, commission * ImpactFundRate, RateScale);
      }
    }
    r
  }

  /** `(price * quantity).quantize(0.01)`: prices carry two places, so the product is already in cents. */
  function QuantizedSubtotal(price: int, quantity: nat): (r: int)
    ensures r == price * quantity
  {
    var exact := price * quantity * 100;
    RoundExact(price * quantity, 100);
    assert exact == (price * quantity) * 100;
    RoundHalfEven(exact, 100)
  }

  /** A line's impact allocation is a tenth of the commission its saved item stores, rounded to a cent. */
  lemma LineImpactFromStoredCommission(it: OrderItem)
    requires it.commissionRate == DefaultCommissionRate
    requires IsHalfEvenRounding(ExactCommission(it), RateScale, it.commissionAmount)
    ensures LineImpact(it.price, it.quantity) == RoundHalfEven(it.commissionAmount * ImpactFundRate, RateScale)
  {
    HalfEvenUnique(ExactCommission(it), RateScale, it.commissionAmount,
                   RoundHalfEven(it.price * it.quantity * DefaultCommissionRate, RateScale));
  }

  /** A worked example: two units at 100.00 give a 30.00 commission and a 3.00 allocation. */
  lemma HundredTimesTwo()
    ensures RoundHalfEven(10000 * 2 * DefaultCommissionRate, RateScale) == 3000
    ensures LineImpact(10000, 2) == 300
  {
    RoundExact(3000, RateScale);
    assert 10000 * 2 * DefaultCommissionRate == 3000 * RateScale;
    RoundExact(300, RateScale);
    assert 3000 * ImpactFundRate == 300 * RateScale;
  }

  /** The allocation of one saved line. */
  function ItemImpact(it: OrderItem): int
  {
    LineImpact(it.price, it.quantity)
  }

  /** The allocation over all lines; it is never negative when no price is. */
  function TotalImpact(items: seq<OrderItem>): (r: int)
    ensures (forall i :: 0 <= i < |items| ==> items[i].price >= 0) ==> r >= 0
  {
    SumOfNonNegative(items, ItemImpact);
    SumOf(items, ItemImpact)
  }

  /**
   * The view's inner loop: over the cart keys in order, make a line for
   * product p when the key reads as its id, and total the lines' allocations.
   */
  method BuildLinesFor(p: Product, quantities: seq<(string, nat)>, pk: nat, user: Option<User>)
    returns (lines: seq<OrderItem>, impact: int)
    ensures lines == LinesFor(p, quantities, pk, user)
    ensures impact == TotalImpact(lines)
  {
    lines := [];
    impact := 0;
    for j := 0 to |quantities|
      invariant lines == LinesFor(p, quantities[..j], pk, user)
      invariant impact == TotalImpact(lines)
    {
      assert quantities[..j + 1][..j] == quantities[..j];
      var (key, value) := quantities[j];
      if ParseInt(key) == Some(p.id) {
        var line := NewLine(pk, p, user, value);
        SumOfAppend(lines, [line], ItemImpact);
        lines := lines + [line];
        impact := impact + ItemImpact(line);
      }
    }
    assert quantities[..|quantities|] == quantities;
  }

  /**
   * The view's outer loop: the cart's products in order, each contributing
   * its lines and their allocations.
   */
  method BuildLines(products: seq<Product>, quantities: seq<(string, nat)>, pk: nat, user: Option<User>)
    returns (items: seq<OrderItem>, impact: int)
    ensures items == Lines(products, quantities, pk, user)
    ensures impact == TotalImpact(items)
    ensures forall i :: 0 <= i < |items| ==> items[i].orderId == Some(pk) && items[i].product.value in products
  {
    items := [];
    impact := 0;
    for i := 0 to |products|
      invariant items == Lines(products[..i], quantities, pk, user)
      invariant impact == TotalImpact(items)
    {
      var lines, more := BuildLinesFor(products[i], quantities, pk, user);
      SumOfAppend(items, lines, ItemImpact);
      assert products[..i + 1][..i] == products[..i];
      assert Lines(products[..i + 1], quantities, pk, user) == items + lines;
      items := items + lines;
      impact := impact + more;
    }
    assert products[..|products|] == products;
  }

  /** What a checkout leaves behind: the new order, its lines and the ledger row, if any. */
  datatype Placed = Placed(order: Order, items: seq<OrderItem>, ledger: Option<ImpactTxn>)

  /**
   * `process_order`. A non-POST request creates nothing. Otherwise the order
   * is created already paid (so no paid date is stamped), one line per
   * matching cart key, and a COMMISSION ledger row exactly when the total
   * allocation is positive. The response is always a redirect home.
   */
  method ProcessOrder(
    isPost: bool, p: Principal, pk: nat, email: string, amountPaid: int, paymentMethod: Option<string>,
    products: seq<Product>, quantities: seq<(string, nat)>)
    returns (response: Response, placed: Option<Placed>)
    ensures response == Redirect(Home)
    ensures placed.Some? <==> isPost
    ensures placed.Some? ==>
              var o := placed.value.order;
              && o.id == Some(pk) && o.status == Paid && o.email == email && o.amountPaid == amountPaid
              && o.user == (if p.Member? then Some(p.user) else None)
              && o.datePaid.None? && o.dateProcessed.None? && o.dateShipped.None? && o.dateDelivered.None?
    ensures placed.Some? ==> placed.value.items == Lines(products, quantities, pk, if p.Member? then Some(p.user) else None)
    ensures placed.Some? ==> (placed.value.ledger.Some? <==> TotalImpact(placed.value.items) > 0)
    ensures placed.Some? && placed.value.ledger.Some? ==>
              placed.value.ledger.value == ImpactTxn(Commission, TotalImpact(placed.value.items),
                                                     if p.Member? then Some(p.user) else None, true)
  {
    response := Redirect(Home);
    if !isPost {
      return response, None;
    }
    var user := if p.Member? then Some(p.user) else None;
    var order := Order(None, user, email, amountPaid, Paid, paymentMethod, None, None, None, None, None);
    order := PreSave(order, map[], 0).(id := Some(pk));
    var items, impact := BuildLines(products, quantities, pk, user);
    var ledger := if impact > 0 then Some(ImpactTxn(Commission, impact, user, true)) else None;
    placed := Some(Placed(order, items, ledger));
  }
}

=== FILE: dashboards.dfy ===
/**
 * The listings behind the administrator dashboards and the seller dashboard
 * (payment/views.py): which statuses each `?status=` filter admits, and the
 * per-order figures a seller sees. Text search and ordering are not modelled.
 */
module Dashboards {
  import opened Base
  import opened Money
  import opened Accounts
  import opened PaymentModels
  import opened SellerTotals
  import opened Seqs
  import opened Web
  import opened Decorators

  /** The four-status set is exactly the statuses other than shipped and delivered. */
  lemma NotDispatched(r: set<Status>)
    requires r == {Pending, Paid, Processing, Cancelled}
    ensures forall s :: s in r <==> s != Shipped && s != Delivered
  {
    forall s: Status ensures s in r <==> s != Shipped && s != Delivered {
      match s
      case Pending => case Paid => case Processing => case Shipped => case Delivered => case Cancelled =>
    }
  }

  /** The statuses the unshipped dashboard lists for `?status=` (default `active`). */
  function NotShippedFilter(status: Option<string>): (r: set<Status>)
    ensures status == Some("cancelled") ==> r == {Cancelled}
    ensures status == Some("all") ==> forall s :: s in r <==> s != Shipped && s != Delivered
    ensures status != Some("cancelled") && status != Some("all") ==> r == {Paid, Processing}
  {
    if status == Some("cancelled") then {Cancelled}
    else if status == Some("all") then
      var r := {Pending, Paid, Processing, Cancelled};
      NotDispatched(r);
      r
    else {Paid, Processing}
  }

  /** The statuses the shipped dashboard lists for `?status=` (default `all`). */
  function ShippedFilter(status: Option<string>): (r: set<Status>)
    ensures status == Some("delivered") ==> r == {Delivered}
    ensures status == Some("shipped") ==> r == {Shipped}
    ensures status != Some("delivered") && status != Some("shipped") ==> r == {Shipped, Delivered}
  {
    if status == Some("delivered") then {Delivered}
    else if status == Some("shipped") then {Shipped}
    else {Shipped, Delivered}
  }

  /**
   * The unshipped dashboard's `all` view and the shipped dashboard's default
   * view divide the six statuses between them; every narrower filter stays
   * inside its dashboard's widest one.
   */
  lemma DashboardsPartitionStatuses(a: Option<string>, b: Option<string>)
    ensures forall s: Status :: s in NotShippedFilter(Some("all")) <==> s !in ShippedFilter(None)
    ensures NotShippedFilter(a) <= NotShippedFilter(Some("all"))
    ensures ShippedFilter(b) <= ShippedFilter(None)
    ensures NotShippedFilter(a) !! ShippedFilter(b)
  {
  }

  /** The `status__in` lookup as a row predicate. */
  function StatusIn(statuses: set<Status>): Order -> bool
  {
    (o: Order) => o.status in statuses
  }

  /** `Order.objects.filter(status__in=statuses)`, in table order. */
  function Listing(orders: seq<Order>, statuses: set<Status>): (r: seq<Order>)
    ensures forall i :: 0 <= i < |r| ==> r[i] in orders && r[i].status in statuses
    ensures forall i :: 0 <= i < |orders| && orders[i].status in statuses ==> orders[i] in r
  {
    Filter(orders, StatusIn(statuses))
  }

  /** The unshipped dashboard's GET listing; `None` is the redirect home for everyone but superusers. */
  function NotShippedDashGet(p: Principal, status: Option<string>, orders: seq<Order>): (r: Option<seq<Order>>)
    ensures r.None? <==> !IsSuperuser(p)
    ensures r.Some? ==> forall i :: 0 <= i < |r.value| ==> r.value[i] in orders && r.value[i].status in NotShippedFilter(status)
    ensures r.Some? ==> forall i :: 0 <= i < |orders| && orders[i].status in NotShippedFilter(status) ==> orders[i] in r.value
  {
    if IsSuperuser(p) then Some(Listing(orders, NotShippedFilter(status))) else None
  }

  /** The shipped dashboard's GET listing; `None` is the redirect home for everyone but superusers. */
  function ShippedDashGet(p: Principal, status: Option<string>, orders: seq<Order>): (r: Option<seq<Order>>)
    ensures r.None? <==> !IsSuperuser(p)
    ensures r.Some? ==> forall i :: 0 <= i < |r.value| ==> r.value[i] in orders && r.value[i].status in ShippedFilter(status)
    ensures r.Some? ==> forall i :: 0 <= i < |orders| && orders[i].status in ShippedFilter(status) ==> orders[i] in r.value
  {
    if IsSuperuser(p) then Some(Listing(orders, ShippedFilter(status))) else None
  }

  /**
   * Between them, the two dashboards' widest views list every order exactly
   * once: no order is missing and none appears on both.
   */
  lemma DashboardsListEveryOrderOnce(u: User, orders: seq<Order>)
    requires u.isSuperuser
    ensures multiset(NotShippedDashGet(Member(u, None), Some("all"), orders).value)
            + multiset(ShippedDashGet(Member(u, None), None, orders).value) == multiset(orders)
  {
    var a := NotShippedFilter(Some("all"));
    var b := ShippedFilter(None);
    forall o: Order ensures StatusIn(b)(o) == !StatusIn(a)(o) {
      DashboardsPartitionStatuses(None, None);
    }
    FilterSplit(orders, StatusIn(a), StatusIn(b));
  }

  /** Whether item `it` shows on seller s's dashboard under `?status=` (default `all`). */
  predicate DashboardShows(it: OrderItem, s: Seller, db: OrderDb, status: Option<string>)
  {
    && it.seller.Some? && it.seller.value.id == s.id
    && (status.None? || status.value == "all" ||
        (it.orderId.Some? && it.orderId.value in db && Code(db[it.orderId.value].status) == status.value))
  }

  /** The seller's items under the dashboard's status filter, in table order. */
  function DashboardItems(s: Seller, items: seq<OrderItem>, db: OrderDb, status: Option<string>): (r: seq<OrderItem>)
    ensures forall i :: 0 <= i < |r| ==> r[i] in items && DashboardShows(r[i], s, db, status)
    ensures forall i :: 0 <= i < |items| && DashboardShows(items[i], s, db, status) ==> items[i] in r
  {
    Filter(items, (it: OrderItem) => DashboardShows(it, s, db, status))
  }

  /** A filter value that is neither `all` nor a status code empties the dashboard. */
  lemma UnknownStatusShowsNothing(s: Seller, items: seq<OrderItem>, db: OrderDb, code: string)
    requires code != "all" && ParseStatus(code).None?
    ensures DashboardItems(s, items, db, Some(code)) == []
  {
    FilterNone(items, (it: OrderItem) => DashboardShows(it, s, db, Some(code)));
  }

  /** The subtotal and commission the dashboard shows for one order, both quantized to a cent. */
  datatype OrderFigures = OrderFigures(subtotal: int, commission: int)

  function DashboardFigures(s: Seller, items: seq<OrderItem>, db: OrderDb, status: Option<string>, pk: nat): (r: OrderFigures)
    ensures var shown := Filter(DashboardItems(s, items, db, status), (it: OrderItem) => it.orderId == Some(pk));
            r.subtotal == SumLineTotals(shown) && IsHalfEvenRounding(SumExactCommission(shown), RateScale, r.commission)
  {
    var shown := Filter(DashboardItems(s, items, db, status), (it: OrderItem) => it.orderId == Some(pk));
    var t := SellerViewTotals(shown);
    OrderFigures(t.subtotal, t.commission)
  }

  /**
   * `seller_dashboard` behind `seller_required`: the visible items, or the
   * decorator's redirect.
   */
  function SellerDashboard(p: Principal, items: seq<OrderItem>, db: OrderDb, status: Option<string>): (r: Result<seq<OrderItem>, Page>)
    ensures r.Ok? <==> ActiveSeller(p)
    ensures r.Ok? ==> r.value == DashboardItems(p.sellerProfile.value, items, db, status)
    ensures r.Err? ==> r.error == Home || r.error == SellerLogin
  {
    match SellerRequired(p, (q: Principal) => if q.Member? && q.sellerProfile.Some?
                                                then DashboardItems(q.sellerProfile.value, items, db, status) else [])
    case Admit(v) => Ok(v)
    case Refuse(to) => Err(to)
  }

  /**
   * Under the default filter the dashboard's figures for an order are the
   * subtotal and commission on that order's detail page.
   */
  lemma DashboardAgreesWithDetail(s: Seller, items: seq<OrderItem>, db: OrderDb, pk: nat)
    ensures DashboardFigures(s, items, db, None, pk).subtotal == SellerViewTotals(SellerItemsOfOrder(items, pk, s)).subtotal
    ensures DashboardFigures(s, items, db, None, pk).commission == SellerViewTotals(SellerItemsOfOrder(items, pk, s)).commission
  {
    var shows := (it: OrderItem) => DashboardShows(it, s, db, None);
    var inOrder := (it: OrderItem) => it.orderId == Some(pk);
    var both := (it: OrderItem) => shows(it) && inOrder(it);
    FilterCompose(items, shows, inOrder, both);
    FilterSameOn(items, both, (it: OrderItem) => SoldIn(it, pk, s));
  }
}

=== FILE: decorators.dfy ===
/** The `seller_required` view decorator (payment/decorators.py). */
module Decorators {
  import opened Base
  import opened Accounts
  import opened Web

  /** Whether the principal is logged in with an active seller profile. */
  predicate ActiveSeller(p: Principal)
  {
    p.Member? && p.sellerProfile.Some? && p.sellerProfile.value.isActive
  }

  /**
   * Wraps `view`: an active seller reaches it with the request unchanged; a
   * logged-in seller whose profile is inactive goes home; anyone else goes to
   * the seller login page.
   */
  function SellerRequired<R>(p: Principal, view: Principal -> R): (g: Gate<R>)
    ensures g.Admit? <==> ActiveSeller(p)
    ensures g.Admit? ==> g.response == view(p)
    ensures g.Refuse? && g.to == Home <==> p.Member? && p.sellerProfile.Some? && !p.sellerProfile.value.isActive
    ensures g.Refuse? && g.to == SellerLogin <==> p.Anonymous? || p.sellerProfile.None?
  {
    if p.Member? && p.sellerProfile.Some? then
      if p.sellerProfile.value.isActive then Admit(view(p)) else Refuse(Home)
    else Refuse(SellerLogin)
  }

  /** What the decorator does: call the view, or redirect without calling it. */
  datatype Gate<R> = Admit(response: R) | Refuse(to: Page)
}

=== FILE: fanout.dfy ===
/**
 * New-order notification fan-out (payment/email_utils.py): grouping the
 * order's lines by seller, the administrator recipients, the per-seller
 * choice between email, an in-app notice and an escalation to
 * administrators, and the customer's address. Each email send or notice
 * creation is an attempt whose success an oracle decides; rendering and
 * transport are not modelled.
 */
module Fanout {
  import opened Base
  import opened Accounts
  import opened PaymentModels
  import opened SellerTotals
  import opened Seqs

  /** The seller a line is grouped under: the line's own seller, else its product's, else none. */
  function SellerKey(it: OrderItem): Option<Seller>
  {
    if it.seller.Some? then it.seller
    else if it.product.Some? then it.product.value.seller
    else None
  }

  /** Model instances are dictionary keys by primary key; `None` is its own key. */
  function KeyId(s: Option<Seller>): Option<nat>
  {
    if s.Some? then Some(s.value.id) else None
  }

  function ItemKey(it: OrderItem): Option<nat>
  {
    KeyId(SellerKey(it))
  }

  /** Whether a line is grouped under key k. */
  function HasKey(k: Option<nat>): OrderItem -> bool
  {
    (it: OrderItem) => ItemKey(it) == k
  }

  /** One dictionary entry of `_group_items_by_seller`: the first key object seen and its lines. */
  datatype Group = Group(seller: Option<Seller>, items: seq<OrderItem>)

  function GroupKey(g: Group): Option<nat>
  {
    KeyId(g.seller)
  }

  /** The keys of the groups. */
  function KeySet(gs: seq<Group>): set<Option<nat>>
  {
    if |gs| == 0 then {} else {GroupKey(gs[0])} + KeySet(gs[1..])
  }

  /** No key appears in two groups. */
  predicate DistinctKeys(gs: seq<Group>)
  {
    |gs| == 0 || (GroupKey(gs[0]) !in KeySet(gs[1..]) && DistinctKeys(gs[1..]))
  }

  /** The lines stored under key k (`sellers_items.get(k, [])`). */
  function ItemsUnder(gs: seq<Group>, k: Option<nat>): seq<OrderItem>
  {
    if |gs| == 0 then [] else if GroupKey(gs[0]) == k then gs[0].items else ItemsUnder(gs[1..], k)
  }

  /** Sum of the groups' subtotals. */
  function GroupsSubtotal(gs: seq<Group>): int
  {
    if |gs| == 0 then 0 else SumLineTotals(gs[0].items) + GroupsSubtotal(gs[1..])
  }

  /** Appending a line adds its total to the sum. */
  lemma SumLineTotalsSnoc(items: seq<OrderItem>, it: OrderItem)
    ensures SumLineTotals(items + [it]) == SumLineTotals(items) + LineTotal(it)
  {
    assert (items + [it])[..|items|] == items;
  }

  /**
   * `sellers_items.setdefault(key, []).append(it)`: append to the group with
   * the line's key, or open a new group at the end.
   */
  function Place(gs: seq<Group>, it: OrderItem): (r: seq<Group>)
    requires DistinctKeys(gs)
    ensures DistinctKeys(r)
    ensures KeySet(r) == KeySet(gs) + {ItemKey(it)}
    ensures forall k :: ItemsUnder(r, k) == ItemsUnder(gs, k) + (if k == ItemKey(it) then [it] else [])
    ensures |r| == if ItemKey(it) in KeySet(gs) then |gs| else |gs| + 1
    ensures forall i :: 0 <= i < |gs| ==> r[i].seller == gs[i].seller
    ensures GroupsSubtotal(r) == GroupsSubtotal(gs) + LineTotal(it)
  {
    if |gs| == 0 then
      SumLineTotalsSnoc([], it);
      [Group(SellerKey(it), [it])]
    else if GroupKey(gs[0]) == ItemKey(it) then
      SumLineTotalsSnoc(gs[0].items, it);
      [gs[0].(items := gs[0].items + [it])] + gs[1..]
    else
      var rest := Place(gs[1..], it);
      assert ([gs[0]] + rest)[1..] == rest;
      [gs[0]] + rest
  }

  /** `_group_items_by_seller`: groups in order of each key's first line, lines in input order within a group. */
  function GroupBySeller(items: seq<OrderItem>): (r: seq<Group>)
    ensures DistinctKeys(r)
    ensures forall k :: ItemsUnder(r, k) == Filter(items, HasKey(k))
    ensures forall k :: k in KeySet(r) <==> |Filter(items, HasKey(k))| > 0
    ensures GroupsSubtotal(r) == SumLineTotals(items)
  {
    if |items| == 0 then []
    else
      var gs := GroupBySeller(items[..|items| - 1]);
      GroupStep(items, gs);
      Place(gs, items[|items| - 1])
  }

  /** Placing the last line keeps the grouping facts of the lines before it. */
  lemma GroupStep(items: seq<OrderItem>, gs: seq<Group>)
    requires |items| > 0 && DistinctKeys(gs)
    requires forall k :: ItemsUnder(gs, k) == Filter(items[..|items| - 1], HasKey(k))
    requires forall k :: k in KeySet(gs) <==> |Filter(items[..|items| - 1], HasKey(k))| > 0
    requires GroupsSubtotal(gs) == SumLineTotals(items[..|items| - 1])
    ensures forall k :: ItemsUnder(Place(gs, items[|items| - 1]), k) == Filter(items, HasKey(k))
    ensures forall k :: k in KeySet(Place(gs, items[|items| - 1])) <==> |Filter(items, HasKey(k))| > 0
    ensures GroupsSubtotal(Place(gs, items[|items| - 1])) == SumLineTotals(items)
  {
    forall k
      ensures ItemsUnder(Place(gs, items[|items| - 1]), k) == Filter(items, HasKey(k))
      ensures k in KeySet(Place(gs, items[|items| - 1])) <==> |Filter(items, HasKey(k))| > 0
    {
      GroupStepAt(items, gs, k);
    }
  }

  /** The grouping facts for one key after placing the last line. */
  lemma GroupStepAt(items: seq<OrderItem>, gs: seq<Group>, k: Option<nat>)
    requires |items| > 0 && DistinctKeys(gs)
    requires ItemsUnder(gs, k) == Filter(items[..|items| - 1], HasKey(k))
    requires k in KeySet(gs) <==> |Filter(items[..|items| - 1], HasKey(k))| > 0
    ensures ItemsUnder(Place(gs, items[|items| - 1]), k) == Filter(items, HasKey(k))
    ensures k in KeySet(Place(gs, items[|items| - 1])) <==> |Filter(items, HasKey(k))| > 0
  {
    var last := items[|items| - 1];
    assert HasKey(k)(last) == (ItemKey(last) == k);
    assert Filter(items, HasKey(k)) == Filter(items[..|items| - 1], HasKey(k)) + (if ItemKey(last) == k then [last] else []);
  }

  /** The group at position i holds exactly the lines under its own key. */
  lemma {:induction false} ItemsUnderAt(gs: seq<Group>, i: nat)
    requires DistinctKeys(gs) && i < |gs|
    ensures ItemsUnder(gs, GroupKey(gs[i])) == gs[i].items
  {
    if i > 0 {
      KeyInKeySet(gs[1..], i - 1);
      ItemsUnderAt(gs[1..], i - 1);
    }
  }

  /** Every group's key is among the keys. */
  lemma {:induction false} KeyInKeySet(gs: seq<Group>, i: nat)
    requires i < |gs|
    ensures GroupKey(gs[i]) in KeySet(gs)
  {
    if i > 0 {
      KeyInKeySet(gs[1..], i - 1);
    }
  }

  /** Some group carries every key in the key set. */
  lemma {:induction false} KeySetHasGroup(gs: seq<Group>, k: Option<nat>) returns (j: nat)
    requires k in KeySet(gs)
    ensures j < |gs| && GroupKey(gs[j]) == k
  {
    if GroupKey(gs[0]) == k {
      j := 0;
    } else {
      var j' := KeySetHasGroup(gs[1..], k);
      j := j' + 1;
    }
  }

  /** Distinct keys, by position. */
  lemma {:induction false} KeysDistinctAt(gs: seq<Group>, i: nat, j: nat)
    requires DistinctKeys(gs) && i < j < |gs|
    ensures GroupKey(gs[i]) != GroupKey(gs[j])
  {
    if i == 0 {
      KeyInKeySet(gs[1..], j - 1);
    } else {
      KeysDistinctAt(gs[1..], i - 1, j - 1);
    }
  }

  /** Grouping places every line in the group whose key is the line's key. */
  lemma EveryLineGrouped(items: seq<OrderItem>, i: nat) returns (j: nat)
    requires i < |items|
    ensures var gs := GroupBySeller(items);
            j < |gs| && GroupKey(gs[j]) == ItemKey(items[i]) && items[i] in gs[j].items
  {
    var gs := GroupBySeller(items);
    var k := ItemKey(items[i]);
    assert items[i] in Filter(items, HasKey(k));
    j := KeySetHasGroup(gs, k);
    ItemsUnderAt(gs, j);
  }

  /** A line appears in no group but the one with its key. */
  lemma LineInNoOtherGroup(items: seq<OrderItem>, x: OrderItem, j: nat)
    requires j < |GroupBySeller(items)| && x in GroupBySeller(items)[j].items
    ensures GroupKey(GroupBySeller(items)[j]) == ItemKey(x) && x in items
  {
    var gs := GroupBySeller(items);
    ItemsUnderAt(gs, j);
    FilterKeeps(items, HasKey(GroupKey(gs[j])), x);
  }

  /** Every key appears once among the groups, by position. */
  lemma GroupKeysDistinct(items: seq<OrderItem>)
    ensures var gs := GroupBySeller(items);
            forall i, j :: 0 <= i < j < |gs| ==> GroupKey(gs[i]) != GroupKey(gs[j])
  {
    var gs := GroupBySeller(items);
    forall i, j | 0 <= i < j < |gs| ensures GroupKey(gs[i]) != GroupKey(gs[j]) {
      KeysDistinctAt(gs, i, j);
    }
  }

  // ---------------------------------------------------------------------
  // The administrator email's per-seller breakdown.
  // ---------------------------------------------------------------------

  /** One `sellers_breakdown` entry: the seller's line total in cents and exact commission in millionths. */
  datatype Entry = Entry(seller: Seller, total: int, commission: int)

  /** The groups whose key is a seller. */
  function Named(gs: seq<Group>): (r: seq<Group>)
    ensures |r| <= |gs|
    ensures forall i :: 0 <= i < |r| ==> r[i] in gs && r[i].seller.Some?
    ensures forall j :: 0 <= j < |gs| && gs[j].seller.Some? ==> gs[j] in r
  {
    Filter(gs, (g: Group) => g.seller.Some?)
  }

  /** The entry for one seller's group, totals unrounded. */
  function EntryOf(g: Group): (e: Entry)
    requires g.seller.Some?
    ensures e.seller == g.seller.value
    ensures e.total == SumLineTotals(g.items) && e.commission == SumExactCommission(g.items)
  {
    Entry(g.seller.value, SumLineTotals(g.items), SumExactCommission(g.items))
  }

  /** `sellers_breakdown`: one entry per group whose key is a seller, in group order. */
  function Breakdown(gs: seq<Group>): (r: seq<Entry>)
    ensures |r| == |Named(gs)|
    ensures forall i :: 0 <= i < |r| ==> r[i] == EntryOf(Named(gs)[i])
  {
    var named := Named(gs);
    seq(|named|, i requires 0 <= i < |named| => EntryOf(named[i]))
  }

  /** Every group keyed by a seller has its entry in the breakdown. */
  lemma BreakdownCoversSellers(gs: seq<Group>, j: nat) returns (i: nat)
    requires j < |gs| && gs[j].seller.Some?
    ensures i < |Breakdown(gs)| && Breakdown(gs)[i] == EntryOf(gs[j])
    ensures Breakdown(gs)[i].total == SumLineTotals(gs[j].items)
    ensures Breakdown(gs)[i].commission == SumExactCommission(gs[j].items)
  {
    var named := Named(gs);
    assert gs[j] in named;
    i :| 0 <= i < |named| && named[i] == gs[j];
  }

  /** Every breakdown entry is the entry of some group keyed by that seller; the unattributed group has none. */
  lemma BreakdownOnlySellers(gs: seq<Group>, i: nat) returns (j: nat)
    requires i < |Breakdown(gs)|
    ensures j < |gs| && gs[j].seller == Some(Breakdown(gs)[i].seller)
    ensures Breakdown(gs)[i].total == SumLineTotals(gs[j].items)
    ensures Breakdown(gs)[i].commission == SumExactCommission(gs[j].items)
  {
    var named := Named(gs);
    assert named[i] in gs;
    j :| 0 <= j < |gs| && gs[j] == named[i];
  }

  // ---------------------------------------------------------------------
  // Recipients.
  // ---------------------------------------------------------------------

  /** `User.objects.filter(is_superuser=True)`, in table order. */
  function Superusers(users: seq<User>): (r: seq<User>)
    ensures forall i :: 0 <= i < |r| ==> r[i] in users && r[i].isSuperuser
    ensures forall i :: 0 <= i < |users| && users[i].isSuperuser ==> users[i] in r
  {
    Filter(users, (u: User) => u.isSuperuser)
  }

  /**
   * `[u.email for u in superusers if u.email and u.email not in initial]`,
   * with the superuser test folded into the comprehension.
   */
  function SuperuserEmails(users: seq<User>, initial: seq<string>): (r: seq<string>)
    ensures forall e :: e in r <==> e !in initial && e != "" &&
                                    exists i :: 0 <= i < |users| && users[i].isSuperuser && users[i].email == e
  {
    if |users| == 0 then []
    else
      var prefix := users[..|users| - 1];
      var u := users[|users| - 1];
      var rest := SuperuserEmails(prefix, initial);
      assert forall i :: 0 <= i < |prefix| ==> prefix[i] == users[i];
      rest + (if u.isSuperuser && u.email != "" && u.email !in initial then [u.email] else [])
  }

  /** The recipient list before deduplication: the configured address first, when set. */
  function AdminRecipientList(adminEmail: Option<string>, users: seq<User>): seq<string>
  {
    var initial := if Truthy(adminEmail) then [adminEmail.value] else [];
    initial + SuperuserEmails(users, initial)
  }

  /**
   * The administrator email's recipients after `list(set(...))`: the
   * configured address when set, and every superuser's non-empty address,
   * each once.
   */
  function AdminRecipients(adminEmail: Option<string>, users: seq<User>): (r: set<string>)
    ensures forall e :: e in r <==> (Truthy(adminEmail) && e == adminEmail.value) ||
                                    (e != "" && exists i :: 0 <= i < |users| && users[i].isSuperuser && users[i].email == e)
  {
    var list := AdminRecipientList(adminEmail, users);
    set e | e in list
  }

  /** Whether a line's seller has an address: a `Seller` has no `email` attribute, so it is the linked user's. */
  function SellerEmail(s: Option<Seller>): Option<string>
  {
    if s.Some? then Some(s.value.user.email) else None
  }

  /** The seller's linked user, `getattr(seller_obj, 'user', None)`. */
  function SellerUser(s: Option<Seller>): Option<User>
  {
    if s.Some? then Some(s.value.user) else None
  }

  /** Where a seller group's in-app notice goes. */
  datatype NoticeChoice = ToLinkedUser(user: User) | EscalateToAdmins | NoNotice

  /**
   * The in-app branch: the linked user when there is one; otherwise the
   * administrators, but only when the seller has no address either.
   */
  function ChooseNotice(user: Option<User>, email: Option<string>): (r: NoticeChoice)
    ensures r.ToLinkedUser? <==> user.Some?
    ensures r.ToLinkedUser? ==> r.user == user.value
    ensures r == EscalateToAdmins <==> user.None? && !Truthy(email)
  {
    if user.Some? then ToLinkedUser(user.value)
    else if !Truthy(email) then EscalateToAdmins
    else NoNotice
  }

  /**
   * Because a seller profile always has a linked user, a seller is
   * notified in-app themselves, and only the group of unattributed lines is
   * escalated to the administrators.
   */
  lemma EscalationOnlyForUnattributed(s: Option<Seller>)
    ensures ChooseNotice(SellerUser(s), SellerEmail(s)) == EscalateToAdmins <==> s.None?
    ensures ChooseNotice(SellerUser(s), SellerEmail(s)) != NoNotice
    ensures Truthy(SellerEmail(s)) <==> s.Some? && s.value.user.email != ""
  {
  }

  /** The customer's address: the order's email, else the linked user's; none when both are empty. */
  function CustomerAddress(o: Order): (r: Option<string>)
    ensures r.Some? ==> r.value != ""
    ensures o.email != "" ==> r == Some(o.email)
    ensures o.email == "" ==> (r.Some? <==> o.user.Some? && o.user.value.email != "")
    ensures o.email == "" && r.Some? ==> r.value == o.user.value.email
  {
    if o.email != "" then Some(o.email)
    else if o.user.Some? && o.user.value.email != "" then Some(o.user.value.email)
    else None
  }

  // ---------------------------------------------------------------------
  // The dispatch plan and its execution.
  // ---------------------------------------------------------------------

  /** One email send or one notice creation. */
  datatype Attempt = Mail(to: set<string>) | Notice(draft: NoticeDraft)

  predicate IsMail(a: Attempt)
  {
    a.Mail?
  }

  /** One notice of the given kind to each of the users, in order. */
  function NoticesTo(us: seq<User>, kind: NoticeKind, pk: nat): (r: seq<Attempt>)
    ensures |r| == |us|
    ensures forall i :: 0 <= i < |r| ==> r[i] == Notice(NoticeDraft(us[i], kind, pk))
  {
    seq(|us|, i requires 0 <= i < |us| => Notice(NoticeDraft(us[i], kind, pk)))
  }

  /**
   * A try block: its attempts run in order and the first failure ends the
   * block; the next block starts regardless.
   */
  type Block = seq<Attempt>

  /** `_send_admin_notifications`: the email when there is a recipient, then one block of notices to every superuser. */
  function AdminBlocks(pk: nat, adminEmail: Option<string>, users: seq<User>): (r: seq<Block>)
    ensures AdminRecipients(adminEmail, users) != {} ==>
              r == [[Mail(AdminRecipients(adminEmail, users))], NoticesTo(Superusers(users), NewOrderForAdmin, pk)]
    ensures AdminRecipients(adminEmail, users) == {} ==>
              r == [NoticesTo(Superusers(users), NewOrderForAdmin, pk)]
  {
    var rec := AdminRecipients(adminEmail, users);
    (if rec != {} then [[Mail(rec)]] else []) + [NoticesTo(Superusers(users), NewOrderForAdmin, pk)]
  }

  /** `_send_seller_notifications` for one group: the email block when there is an address, then the notice block. */
  function SellerBlocks(g: Group, pk: nat, users: seq<User>): (r: seq<Block>)
    ensures |r| == (if Truthy(SellerEmail(g.seller)) then 1 else 0)
                   + (if ChooseNotice(SellerUser(g.seller), SellerEmail(g.seller)) == NoNotice then 0 else 1)
    ensures Truthy(SellerEmail(g.seller)) ==> r[0] == [Mail({SellerEmail(g.seller).value})]
    ensures ChooseNotice(SellerUser(g.seller), SellerEmail(g.seller)).ToLinkedUser? ==>
              r[|r| - 1] == [Notice(NoticeDraft(SellerUser(g.seller).value, NewOrderForSeller(|g.items|), pk))]
    ensures ChooseNotice(SellerUser(g.seller), SellerEmail(g.seller)) == EscalateToAdmins ==>
              r[|r| - 1] == NoticesTo(Superusers(users), SellerUnreachable, pk)
  {
    var email := SellerEmail(g.seller);
    var mail: seq<Block> := if Truthy(email) then [[Mail({email.value})]] else [];
    var notice: seq<Block> :=
      match ChooseNotice(SellerUser(g.seller), email)
      case ToLinkedUser(u) => [[Notice(NoticeDraft(u, NewOrderForSeller(|g.items|), pk))]]
      case EscalateToAdmins => [NoticesTo(Superusers(users), SellerUnreachable, pk)]
      case NoNotice => [];
    mail + notice
  }

  /** The seller blocks of all groups, in group order. */
  function AllSellerBlocks(gs: seq<Group>, pk: nat, users: seq<User>): seq<Block>
  {
    if |gs| == 0 then [] else SellerBlocks(gs[0], pk, users) + AllSellerBlocks(gs[1..], pk, users)
  }

  /** The blocks of two runs of groups are the blocks of the first run, then those of the second. */
  lemma {:induction false} AllSellerBlocksAppend(a: seq<Group>, b: seq<Group>, pk: nat, users: seq<User>)
    ensures AllSellerBlocks(a + b, pk, users) == AllSellerBlocks(a, pk, users) + AllSellerBlocks(b, pk, users)
    decreases |a|
  {
    if |a| == 0 {
      assert a + b == b;
    } else {
      assert (a + b)[1..] == a[1..] + b;
      AllSellerBlocksAppend(a[1..], b, pk, users);
    }
  }

  /**
   * The blocks of group i sit, unchanged, right after the blocks of the groups
   * before it: the sellers are written to one after another, in group order.
   */
  lemma SellerBlocksInOrder(gs: seq<Group>, i: nat, pk: nat, users: seq<User>)
    requires i < |gs|
    ensures var start := |AllSellerBlocks(gs[..i], pk, users)|;
            var own := SellerBlocks(gs[i], pk, users);
            && start + |own| <= |AllSellerBlocks(gs, pk, users)|
            && AllSellerBlocks(gs, pk, users)[start .. start + |own|] == own
  {
    assert gs == gs[..i] + gs[i..];
    AllSellerBlocksAppend(gs[..i], gs[i..], pk, users);
    assert gs[i..][0] == gs[i] && gs[i..][1..] == gs[i + 1..];
  }

  /** `_send_customer_confirmation`: one email to the customer's address, or nothing. */
  function CustomerBlocks(o: Order): (r: seq<Block>)
    ensures CustomerAddress(o).Some? <==> |r| == 1
    ensures CustomerAddress(o).Some? ==> r[0] == [Mail({CustomerAddress(o).value})]
    ensures CustomerAddress(o).None? ==> r == []
  {
    match CustomerAddress(o)
    case Some(a) => [[Mail({a})]]
    case None => []
  }

  /**
   * `send_order_notifications`: administrators, then each seller group, then
   * the customer. The admin email, when there is one, goes first; the admin
   * notices close the admin part; the customer email, when there is an
   * address, comes last.
   */
  function Plan(o: Order, pk: nat, items: seq<OrderItem>, users: seq<User>, adminEmail: Option<string>): (r: seq<Block>)
    ensures var k := if AdminRecipients(adminEmail, users) != {} then 1 else 0;
            k < |r| && r[k] == NoticesTo(Superusers(users), NewOrderForAdmin, pk)
    ensures AdminRecipients(adminEmail, users) != {} ==> r[0] == [Mail(AdminRecipients(adminEmail, users))]
    ensures CustomerAddress(o).Some? ==> r[|r| - 1] == [Mail({CustomerAddress(o).value})]
    ensures CustomerAddress(o).None? ==> r == AdminBlocks(pk, adminEmail, users) + AllSellerBlocks(GroupBySeller(items), pk, users)
    ensures |AdminBlocks(pk, adminEmail, users)| <= |r| - |CustomerBlocks(o)|
    ensures r[|AdminBlocks(pk, adminEmail, users)| .. |r| - |CustomerBlocks(o)|] == AllSellerBlocks(GroupBySeller(items), pk, users)
  {
    AdminBlocks(pk, adminEmail, users) + AllSellerBlocks(GroupBySeller(items), pk, users) + CustomerBlocks(o)
  }

  /** An attempt and whether it succeeded. */
  datatype Outcome = Outcome(attempt: Attempt, ok: bool)

  /** Runs block b (the plan's block number `bi`) from attempt k on, stopping after the first failure. */
  function RunFrom(b: Block, bi: nat, ok: (nat, nat) -> bool, k: nat): (r: seq<Outcome>)
    requires k <= |b|
    ensures |r| <= |b| - k
    ensures forall n :: 0 <= n < |r| ==> r[n] == Outcome(b[k + n], ok(bi, k + n))
    ensures forall n :: 0 <= n < |r| - 1 ==> r[n].ok
    ensures |r| < |b| - k ==> |r| > 0 && !r[|r| - 1].ok
    decreases |b| - k
  {
    if k == |b| then []
    else if ok(bi, k) then [Outcome(b[k], true)] + RunFrom(b, bi, ok, k + 1)
    else [Outcome(b[k], false)]
  }

  /** The outcomes of every block of a plan, block by block. */
  function Run(plan: seq<Block>, ok: (nat, nat) -> bool): (r: seq<seq<Outcome>>)
    ensures |r| == |plan|
    ensures forall bi :: 0 <= bi < |plan| ==> r[bi] == RunFrom(plan[bi], bi, ok, 0)
  {
    seq(|plan|, bi requires 0 <= bi < |plan| => RunFrom(plan[bi], bi, ok, 0))
  }

  /** A block's outcomes depend only on the oracle's answers for that block. */
  lemma {:induction false} RunFromIsolated(b: Block, bi: nat, ok: (nat, nat) -> bool, ok': (nat, nat) -> bool, k: nat)
    requires k <= |b|
    requires forall n :: ok(bi, n) == ok'(bi, n)
    ensures RunFrom(b, bi, ok, k) == RunFrom(b, bi, ok', k)
    decreases |b| - k
  {
    if k < |b| {
      RunFromIsolated(b, bi, ok, ok', k + 1);
    }
  }

  /**
   * Each try block is isolated: whatever fails elsewhere, every block of the
   * plan is entered, and its outcomes are the same as if every other attempt
   * had gone differently.
   */
  lemma BlocksIsolated(plan: seq<Block>, ok: (nat, nat) -> bool, ok': (nat, nat) -> bool, bi: nat)
    requires bi < |plan|
    requires forall n :: ok(bi, n) == ok'(bi, n)
    ensures Run(plan, ok)[bi] == Run(plan, ok')[bi]
    ensures |plan[bi]| > 0 ==> |Run(plan, ok)[bi]| > 0 && Run(plan, ok)[bi][0].attempt == plan[bi][0]
  {
    RunFromIsolated(plan[bi], bi, ok, ok', 0);
  }

  /** From attempt j on, a failure at attempt k leaves nothing after k run. */
  lemma {:induction false} RunFromStops(b: Block, bi: nat, ok: (nat, nat) -> bool, j: nat, k: nat)
    requires j <= k < |b| && !ok(bi, k)
    ensures |RunFrom(b, bi, ok, j)| <= k + 1 - j
    decreases k - j
  {
    if j < k && ok(bi, j) {
      RunFromStops(b, bi, ok, j + 1, k);
    }
  }

  /** Within a block, a failure stops the remaining attempts: the administrator notice loop shares one try. */
  lemma FailureEndsBlock(plan: seq<Block>, ok: (nat, nat) -> bool, bi: nat, k: nat)
    requires bi < |plan| && k < |plan[bi]| && !ok(bi, k)
    ensures |Run(plan, ok)[bi]| <= k + 1
  {
    RunFromStops(plan[bi], bi, ok, 0, k);
  }

  /** The number of email attempts a block holds. */
  function MailsIn(b: Block): nat
  {
    if |b| == 0 then 0 else (if b[0].Mail? then 1 else 0) + MailsIn(b[1..])
  }

  /** The number of email attempts a plan holds. */
  function Mails(plan: seq<Block>): nat
  {
    if |plan| == 0 then 0 else MailsIn(plan[0]) + Mails(plan[1..])
  }

  lemma {:induction false} MailsAppend(a: seq<Block>, b: seq<Block>)
    ensures Mails(a + b) == Mails(a) + Mails(b)
  {
    if |a| == 0 {
      assert a + b == b;
    } else {
      assert (a + b)[1..] == a[1..] + b;
      MailsAppend(a[1..], b);
    }
  }

  /** A one-block plan holds that block's emails; a one-attempt block holds one email if it is one. */
  lemma MailsSingle(b: Block, x: Attempt)
    ensures Mails([b]) == MailsIn(b)
    ensures MailsIn([x]) == if x.Mail? then 1 else 0
  {
    assert [b][1..] == [];
    assert [x][1..] == [];
  }

  /** Notice blocks hold no email. */
  lemma {:induction false} NoticesHoldNoMail(us: seq<User>, kind: NoticeKind, pk: nat)
    ensures MailsIn(NoticesTo(us, kind, pk)) == 0
    decreases |us|
  {
    if |us| > 0 {
      assert NoticesTo(us, kind, pk)[1..] == NoticesTo(us[1..], kind, pk);
      NoticesHoldNoMail(us[1..], kind, pk);
    }
  }

  /** The number of groups whose seller has an address. */
  function Emailable(gs: seq<Group>): nat
  {
    if |gs| == 0 then 0 else (if Truthy(SellerEmail(gs[0].seller)) then 1 else 0) + Emailable(gs[1..])
  }

  /** Each seller group contributes one email exactly when its seller has an address. */
  lemma {:induction false} SellerMails(gs: seq<Group>, pk: nat, users: seq<User>)
    ensures Mails(AllSellerBlocks(gs, pk, users)) == Emailable(gs)
  {
    if |gs| > 0 {
      var g := gs[0];
      var own := SellerBlocks(g, pk, users);
      assert AllSellerBlocks(gs, pk, users) == own + AllSellerBlocks(gs[1..], pk, users);
      SellerMails(gs[1..], pk, users);
      MailsAppend(own, AllSellerBlocks(gs[1..], pk, users));
      NoticesHoldNoMail(Superusers(users), SellerUnreachable, pk);
      var email := SellerEmail(g.seller);
      var mail: seq<Block> := if Truthy(email) then [[Mail({email.value})]] else [];
      var notice: seq<Block> :=
        match ChooseNotice(SellerUser(g.seller), email)
        case ToLinkedUser(u) => [[Notice(NoticeDraft(u, NewOrderForSeller(|g.items|), pk))]]
        case EscalateToAdmins => [NoticesTo(Superusers(users), SellerUnreachable, pk)]
        case NoNotice => [];
      assert own == mail + notice;
      MailsAppend(mail, notice);
      if Truthy(email) {
        MailsSingle([Mail({email.value})], Mail({email.value}));
      }
      match ChooseNotice(SellerUser(g.seller), email)
      case ToLinkedUser(u) =>
        var x := Notice(NoticeDraft(u, NewOrderForSeller(|g.items|), pk));
        MailsSingle([x], x);
      case EscalateToAdmins =>
        MailsSingle(NoticesTo(Superusers(users), SellerUnreachable, pk), Mail({}));
      case NoNotice =>
    }
  }

  /** When every group's seller has an address, every group gets an email. */
  lemma {:induction false} AllEmailable(gs: seq<Group>)
    requires forall j :: 0 <= j < |gs| ==> gs[j].seller.Some? && gs[j].seller.value.user.email != ""
    ensures Emailable(gs) == |gs|
  {
    if |gs| > 0 {
      AllEmailable(gs[1..]);
    }
  }

  /**
   * The emails a new order triggers: one to the administrators when they have
   * an address, one per seller group with an address, and one to the customer
   * when there is an address.
   */
  lemma PlanMailCount(o: Order, pk: nat, items: seq<OrderItem>, users: seq<User>, adminEmail: Option<string>)
    ensures Mails(Plan(o, pk, items, users, adminEmail)) ==
              (if AdminRecipients(adminEmail, users) != {} then 1 else 0)
              + Emailable(GroupBySeller(items))
              + (if CustomerAddress(o).Some? then 1 else 0)
  {
    var a := AdminBlocks(pk, adminEmail, users);
    var b := AllSellerBlocks(GroupBySeller(items), pk, users);
    var c := CustomerBlocks(o);
    MailsAppend(a + b, c);
    MailsAppend(a, b);
    SellerMails(GroupBySeller(items), pk, users);
    NoticesHoldNoMail(Superusers(users), NewOrderForAdmin, pk);
    var rec := AdminRecipients(adminEmail, users);
    MailsSingle(NoticesTo(Superusers(users), NewOrderForAdmin, pk), Mail(rec));
    MailsSingle([Mail(rec)], Mail(rec));
    if rec != {} {
      MailsAppend([[Mail(rec)]], [NoticesTo(Superusers(users), NewOrderForAdmin, pk)]);
    }
    if CustomerAddress(o).Some? {
      MailsSingle([Mail({CustomerAddress(o).value})], Mail({CustomerAddress(o).value}));
    } else {
      assert c == [];
    }
  }

  /**
   * An order whose lines come from two sellers with addresses, with an
   * administrator address and a customer address, triggers four emails.
   */
  lemma TwoSellerOrderSendsFourEmails(o: Order, pk: nat, items: seq<OrderItem>, users: seq<User>, adminEmail: Option<string>)
    requires |GroupBySeller(items)| == 2
    requires forall j :: 0 <= j < |GroupBySeller(items)| ==>
               GroupBySeller(items)[j].seller.Some? && GroupBySeller(items)[j].seller.value.user.email != ""
    requires Truthy(adminEmail) && CustomerAddress(o).Some?
    ensures Mails(Plan(o, pk, items, users, adminEmail)) == 4
  {
    PlanMailCount(o, pk, items, users, adminEmail);
    assert adminEmail.value in AdminRecipients(adminEmail, users);
    AllEmailable(GroupBySeller(items));
  }

  /** The customer's email is attempted whatever happened to every earlier attempt. */
  lemma CustomerReachedRegardless(o: Order, pk: nat, items: seq<OrderItem>, users: seq<User>, adminEmail: Option<string>, ok: (nat, nat) -> bool)
    requires CustomerAddress(o).Some?
    ensures var plan := Plan(o, pk, items, users, adminEmail);
            |plan| > 0 && Run(plan, ok)[|plan| - 1] == [Outcome(Mail({CustomerAddress(o).value}), ok(|plan| - 1, 0))]
  {
    var plan := Plan(o, pk, items, users, adminEmail);
    var n := |plan| - 1;
    assert plan[n] == [Mail({CustomerAddress(o).value})];
    assert RunFrom(plan[n], n, ok, 1) == [];
  }
}

=== FILE: money.dfy ===
/**
 * Exact decimal money arithmetic.
 *
 * Every Decimal of the storefront is an integer scaled by a power of ten:
 * prices and commission amounts carry 2 decimal places (cents), commission
 * rates carry 4 (`DecimalField(decimal_places=4)`), so a product
 * price x quantity x rate is an integer in millionths. `quantize(Decimal('0.01'))`
 * under the default context rounds half to even.
 */
module Money {

  /** One unit of a rate: a rate r means r / RateScale (0.15 is 1500). */
  const RateScale: int := 10000

  /** Absolute value. */
  function Abs(x: int): (r: nat)
    ensures r == x || r == -x
  {
    if x >= 0 then x else -x
  }

  /** r is n / d rounded to the nearest integer, ties going to the even one. */
  ghost predicate IsHalfEvenRounding(n: int, d: int, r: int)
    requires d > 0
  {
    && 2 * Abs(n - r * d) <= d
    && (2 * Abs(n - r * d) == d ==> r % 2 == 0)
  }

  /** `Decimal.quantize` with ROUND_HALF_EVEN, dividing by d. */
  function RoundHalfEven(n: int, d: int): (r: int)
    requires d > 0
    ensures IsHalfEvenRounding(n, d, r)
  {
    var q := n / d;
    var m := n % d;
    assert n - q * d == m;
    assert n - (q + 1) * d == m - d;
    if 2 * m < d then q
    else if 2 * m > d then q + 1
    else if q % 2 == 0 then q
    else q + 1
  }

  /** A positive multiple of d is at least d, and at least 2d from the second on. */
  lemma MultipleAtLeast(k: int, d: int)
    requires d > 0
    ensures k >= 1 ==> k * d >= d
    ensures k >= 2 ==> k * d >= 2 * d
  {
    if k >= 1 {
      var t := k - 1;
      assert k * d == t * d + d;
      assert t * d >= 0;
      if k >= 2 {
        assert t * d == (t - 1) * d + d;
        assert (t - 1) * d >= 0;
      }
    }
  }

  /** Above a half-even rounding r1 no larger integer is one. */
  lemma HalfEvenOrdered(n: int, d: int, r1: int, r2: int)
    requires d > 0 && r1 < r2
    requires IsHalfEvenRounding(n, d, r1)
    ensures !IsHalfEvenRounding(n, d, r2)
  {
    var e1 := n - r1 * d;
    var e2 := n - r2 * d;
    var k := r2 - r1;
    assert e1 - e2 == k * d;
    MultipleAtLeast(k, d);
    if k >= 2 {
      assert 2 * e2 < -d;
    } else {
      assert k == 1 && e2 == e1 - d;
      if 2 * e1 < d {
        assert 2 * e2 < -d;
      } else {
        assert 2 * Abs(e2) == d;
        assert r1 % 2 == 0;
        assert r2 % 2 == 1;
      }
    }
  }

  /** Half-even rounding has exactly one answer. */
  lemma HalfEvenUnique(n: int, d: int, r1: int, r2: int)
    requires d > 0
    requires IsHalfEvenRounding(n, d, r1)
    requires IsHalfEvenRounding(n, d, r2)
    ensures r1 == r2
  {
    if r1 < r2 {
      HalfEvenOrdered(n, d, r1, r2);
    } else if r2 < r1 {
      HalfEvenOrdered(n, d, r2, r1);
    }
  }

  /** Quantizing a value that already has the target precision leaves it as is. */
  lemma RoundExact(k: int, d: int)
    requires d > 0
    ensures RoundHalfEven(k * d, d) == k
  {
    assert IsHalfEvenRounding(k * d, d, k);
    HalfEvenUnique(k * d, d, k, RoundHalfEven(k * d, d));
  }

  /**
   * Subtracting from a whole number of units commutes with rounding unless the
   * rounded part sits exactly on a tie and the whole number is odd.
   */
  lemma RoundComplement(k: int, x: int, d: int)
    requires d > 0
    requires k % 2 == 0 || 2 * Abs(x - RoundHalfEven(x, d) * d) != d
    ensures RoundHalfEven(k * d - x, d) == k - RoundHalfEven(x, d)
  {
    var r := RoundHalfEven(x, d);
    assert (k * d - x) - (k - r) * d == r * d - x;
    assert Abs((k * d - x) - (k - r) * d) == Abs(x - r * d);
    assert IsHalfEvenRounding(k * d - x, d, k - r);
    HalfEvenUnique(k * d - x, d, k - r, RoundHalfEven(k * d - x, d));
  }

  /** Of two half-even roundings, the one of the smaller value is not larger. */
  lemma RoundingsOrdered(x: int, y: int, d: int, rx: int, ry: int)
    requires d > 0 && x < y
    requires IsHalfEvenRounding(x, d, rx)
    requires IsHalfEvenRounding(y, d, ry)
    ensures rx <= ry
  {
    var px := rx * d;
    var py := ry * d;
    var k := rx - ry;
    assert k * d == px - py;
    assert 2 * (x - px) >= -d && 2 * (y - py) <= d;
    assert k * d < d;
    MultipleAtLeast(k, d);
  }

  /** Rounding never reverses the order of two values. */
  lemma RoundMonotonic(x: int, y: int, d: int)
    requires d > 0
    requires x <= y
    ensures RoundHalfEven(x, d) <= RoundHalfEven(y, d)
  {
    if x < y {
      RoundingsOrdered(x, y, d, RoundHalfEven(x, d), RoundHalfEven(y, d));
    }
  }
}

=== FILE: notification_views.dfy ===
/**
 * In-app notification views and the per-request context
 * (payment/views.py:62-146, ecom/context_processors.py): opening a
 * notification, marking all read, the unread badge and the newsletter form.
 */
module NotificationViews {
  import opened Base
  import opened Accounts
  import opened PaymentModels
  import opened Seqs
  import opened Web

  /** Whether notification n belongs to the user with key `userId`. */
  predicate Owns(userId: nat, n: Notification)
  {
    n.recipient == userId
  }

  /** `get_object_or_404(Notification, pk=pk, user=user)`: the index of that row, if any. */
  function FindNotice(notifs: seq<Notification>, pk: nat, userId: nat): (r: Option<nat>)
    ensures r.Some? ==> r.value < |notifs| && notifs[r.value].id == pk && Owns(userId, notifs[r.value])
    ensures r.None? ==> forall i :: 0 <= i < |notifs| ==> !(notifs[i].id == pk && Owns(userId, notifs[i]))
  {
    if |notifs| == 0 then None
    else if notifs[0].id == pk && Owns(userId, notifs[0]) then Some(0)
    else
      var rest := FindNotice(notifs[1..], pk, userId);
      assert forall i :: 1 <= i < |notifs| ==> notifs[i] == notifs[1..][i - 1];
      if rest.Some? then Some(rest.value + 1) else None
  }

  /** Where an opened notification sends the user, given the order it links to. */
  function OpenTarget(p: Principal, link: Option<int>, db: OrderDb, items: seq<OrderItem>): (r: Page)
    requires p.Member?
    ensures (link.None? || link == Some(0)) ==> r == NotificationsList
    ensures link.Some? && link.value != 0 && !(link.value >= 0 && link.value in db) ==> r == NotificationsList
    ensures link.Some? && link.value > 0 && link.value in db ==>
              var pk := link.value;
              if p.sellerProfile.Some? && HasItemsOf(items, pk, p.sellerProfile.value) then r == SellerDashboard
              else if p.user.isSuperuser then r == AdminOrderChange(pk)
              else if db[pk].user.Some? && SameUser(db[pk].user.value, p.user) then r == Home
              else r == NotificationsList
  {
    if link.None? || link.value == 0 then NotificationsList
    else if link.value < 0 || link.value !in db then NotificationsList
    else
      var pk: nat := link.value;
      if p.sellerProfile.Some? && HasItemsOf(items, pk, p.sellerProfile.value) then SellerDashboard
      else if p.user.isSuperuser then AdminOrderChange(pk)
      else if db[pk].user.Some? && SameUser(db[pk].user.value, p.user) then Home
      else NotificationsList
  }

  /** A response and the notification table after it. */
  datatype NoticeResult = NoticeResult(response: Response, notifs: seq<Notification>)

  /**
   * `notification_open` (and `notification_redirect_view`, which calls it):
   * someone else's or a missing notification is refused; otherwise it is
   * marked read and the user is redirected by role.
   */
  function NotificationOpen(p: Principal, pk: nat, notifs: seq<Notification>, db: OrderDb, items: seq<OrderItem>): (r: NoticeResult)
    ensures p.Anonymous? ==> r == NoticeResult(Redirect(Login), notifs)
    ensures p.Member? ==> (r.response == Forbidden <==> FindNotice(notifs, pk, p.user.id).None?)
    ensures r.response == Forbidden ==> r.notifs == notifs
    ensures |r.notifs| == |notifs|
    ensures p.Member? && FindNotice(notifs, pk, p.user.id).Some? ==>
              var i := FindNotice(notifs, pk, p.user.id).value;
              && r.notifs == notifs[i := notifs[i].(isRead := true)]
              && r.response == Redirect(OpenTarget(p, notifs[i].orderId, db, items))
  {
    if p.Anonymous? then NoticeResult(Redirect(Login), notifs)
    else match FindNotice(notifs, pk, p.user.id)
      case None => NoticeResult(Forbidden, notifs)
      case Some(i) =>
        var n := notifs[i];
        var marked := if !n.isRead then notifs[i := n.(isRead := true)] else notifs;
        assert marked == notifs[i := n.(isRead := true)];
        NoticeResult(Redirect(OpenTarget(p, n.orderId, db, items)), marked)
  }

  /** Opening the same notification twice changes nothing more and redirects to the same place. */
  lemma NotificationOpenIdempotent(p: Principal, pk: nat, notifs: seq<Notification>, db: OrderDb, items: seq<OrderItem>)
    ensures var once := NotificationOpen(p, pk, notifs, db, items);
            NotificationOpen(p, pk, once.notifs, db, items) == once
  {
    var once := NotificationOpen(p, pk, notifs, db, items);
    if p.Member? {
      match FindNotice(notifs, pk, p.user.id)
      case None =>
      case Some(i) =>
        var j := FindNotice(once.notifs, pk, p.user.id);
        assert j.Some? by {
          assert once.notifs[i].id == pk && Owns(p.user.id, once.notifs[i]);
        }
        FindNoticeStable(notifs, pk, p.user.id, i);
    }
  }

  /** Marking the found row read keeps it the row found. */
  lemma {:induction false} FindNoticeStable(notifs: seq<Notification>, pk: nat, userId: nat, i: nat)
    requires FindNotice(notifs, pk, userId) == Some(i)
    ensures FindNotice(notifs[i := notifs[i].(isRead := true)], pk, userId) == Some(i)
  {
    if i > 0 {
      assert notifs[i := notifs[i].(isRead := true)][1..] == notifs[1..][i - 1 := notifs[i].(isRead := true)];
      FindNoticeStable(notifs[1..], pk, userId, i - 1);
    }
  }

  /**
   * `mark_all_notifications_read`: anything but a POST is a 400; a POST marks
   * every notification of the user read and touches no one else's.
   */
  function MarkAllRead(p: Principal, isPost: bool, notifs: seq<Notification>): (r: NoticeResult)
    ensures p.Anonymous? ==> r == NoticeResult(Redirect(Login), notifs)
    ensures p.Member? && !isPost ==> r == NoticeResult(BadRequest, notifs)
    ensures |r.notifs| == |notifs|
    ensures p.Member? && isPost ==> r.response == Rendered
    ensures p.Member? && isPost ==>
              forall i :: 0 <= i < |notifs| ==>
                r.notifs[i] == (if Owns(p.user.id, notifs[i]) then notifs[i].(isRead := true) else notifs[i])
  {
    if p.Anonymous? then NoticeResult(Redirect(Login), notifs)
    else if !isPost then NoticeResult(BadRequest, notifs)
    else
      var marked := seq(|notifs|, i requires 0 <= i < |notifs| =>
                        if Owns(p.user.id, notifs[i]) && !notifs[i].isRead then notifs[i].(isRead := true) else notifs[i]);
      NoticeResult(Rendered, marked)
  }

  /** A user's unread notifications, in table order. */
  function UnreadOf(notifs: seq<Notification>, userId: nat): (r: seq<Notification>)
    ensures forall i :: 0 <= i < |r| ==> r[i] in notifs && Owns(userId, r[i]) && !r[i].isRead
    ensures forall i :: 0 <= i < |notifs| && Owns(userId, notifs[i]) && !notifs[i].isRead ==> notifs[i] in r
  {
    Filter(notifs, (n: Notification) => Owns(userId, n) && !n.isRead)
  }

  function CreatedAt(n: Notification): int
  {
    n.createdAt
  }

  /** The badge: the count of all unread notifications and the newest five. */
  datatype Badge = Badge(count: nat, latest: seq<Notification>)

  /** The `notifications` context processor. */
  function UnreadContext(p: Principal, notifs: seq<Notification>): (r: Badge)
    ensures p.Anonymous? ==> r == Badge(0, [])
    ensures |r.latest| <= 5 && |r.latest| <= r.count
    ensures p.Member? ==> r.count == |UnreadOf(notifs, p.user.id)|
    ensures p.Member? ==> |r.latest| == if r.count < 5 then r.count else 5
    ensures forall i :: 0 <= i < |r.latest| ==> r.latest[i] in notifs && !r.latest[i].isRead && p.Member? && Owns(p.user.id, r.latest[i])
    ensures DescendingBy(r.latest, CreatedAt)
  {
    if p.Anonymous? then Badge(0, [])
    else
      var unread := UnreadOf(notifs, p.user.id);
      var sorted := SortDesc(unread, CreatedAt);
      var latest := Take(sorted, 5);
      forall i | 0 <= i < |latest|
        ensures latest[i] in notifs && !latest[i].isRead && Owns(p.user.id, latest[i])
      {
        assert latest[i] == sorted[i];
        assert sorted[i] in multiset(unread);
      }
      Badge(|unread|, latest)
  }

  /**
   * The badge's list is the head of the user's unread notifications sorted
   * newest first: no unread notification left out is newer than one shown.
   */
  lemma BadgeShowsNewest(u: User, s: Option<Seller>, notifs: seq<Notification>)
    ensures var unread := UnreadOf(notifs, u.id);
            var sorted := SortDesc(unread, CreatedAt);
            var latest := UnreadContext(Member(u, s), notifs).latest;
            && multiset(sorted) == multiset(unread)
            && latest == sorted[..|latest|]
            && forall i, j :: 0 <= i < |latest| <= j < |sorted| ==> sorted[j].createdAt <= latest[i].createdAt
  {
  }

  /** After marking all read, the user's badge is empty. */
  lemma MarkAllReadClearsBadge(u: User, s: Option<Seller>, notifs: seq<Notification>)
    ensures UnreadContext(Member(u, s), MarkAllRead(Member(u, s), true, notifs).notifs) == Badge(0, [])
  {
    var after := MarkAllRead(Member(u, s), true, notifs).notifs;
    FilterNone(after, (n: Notification) => Owns(u.id, n) && !n.isRead);
  }

  /** `newsletter_form`: the form is offered unless the view set `disable_newsletter`. */
  function NewsletterFormShown(disableNewsletter: Option<bool>): (shown: bool)
    ensures shown <==> disableNewsletter != Some(true)
  {
    !(disableNewsletter.Some? && disableNewsletter.value)
  }
}

=== FILE: order_actions.dfy ===
/**
 * Every path that changes an order's status (payment/views.py): the guarded
 * `update_order_status` endpoint, and the unguarded assignments made by the
 * seller order detail page, the two administrator dashboards and
 * `cancel_order`, a view whose URL pattern is commented out, so that no
 * request reaches it. Each save runs the pre-save hook.
 */
module OrderActions {
  import opened Base
  import opened Text
  import opened Accounts
  import opened PaymentModels
  import opened SellerTotals
  import opened Web
  import opened Decorators

  /** Rank along the forward lifecycle pending, paid, processing, shipped, delivered. */
  function Rank(s: Status): nat
  {
    match s
    case Pending => 0
    case Paid => 1
    case Processing => 2
    case Shipped => 3
    case Delivered => 4
    case Cancelled => 5
  }

  /**
   * The transition table of `update_order_status`: the status an action moves
   * the order to from its current status, or `None` when the pair is refused.
   */
  function GuardedTarget(action: string, current: Status): (r: Option<Status>)
    ensures r.Some? ==> Code(r.value) == action
    ensures r == Some(Processing) <==> action == "processing" && (current == Paid || current == Pending)
    ensures r == Some(Shipped) <==> action == "shipped" && current == Processing
    ensures r == Some(Delivered) <==> action == "delivered" && current == Shipped
    ensures r == Some(Cancelled) <==> action == "cancelled" && current != Delivered && current != Cancelled
    ensures r != Some(Pending) && r != Some(Paid)
  {
    if action == "processing" && (current == Paid || current == Pending) then Some(Processing)
    else if action == "shipped" && current == Processing then Some(Shipped)
    else if action == "delivered" && current == Shipped then Some(Delivered)
    else if action == "cancelled" && current != Delivered && current != Cancelled then Some(Cancelled)
    else None
  }

  /**
   * Guarded transitions only move forward along the lifecycle, or sideways into
   * cancelled; delivered and cancelled orders accept no action.
   */
  lemma GuardedNeverRegresses(action: string, current: Status)
    ensures GuardedTarget(action, current).Some? ==>
              GuardedTarget(action, current).value == Cancelled || Rank(GuardedTarget(action, current).value) > Rank(current)
    ensures GuardedTarget(action, current).Some? ==> GuardedTarget(action, current).value != current
    ensures current == Delivered || current == Cancelled ==> GuardedTarget(action, current).None?
  {
  }

  /**
   * `(request.POST.get('action') or '').strip().lower()`: a missing action is
   * empty, the result has no surrounding whitespace and no capital letter, and
   * an action already in that form passes unchanged.
   */
  function NormalizeAction(action: Option<string>): (r: string)
    ensures action.None? ==> r == ""
    ensures action.Some? ==> |r| <= |action.value|
    ensures |r| > 0 ==> !IsSpace(r[0]) && !IsSpace(r[|r| - 1])
    ensures forall i :: 0 <= i < |r| ==> !('A' <= r[i] <= 'Z')
    ensures action.Some? && (forall i :: 0 <= i < |action.value| ==> !IsSpace(action.value[i]) && !('A' <= action.value[i] <= 'Z'))
            ==> r == action.value
  {
    LowerAscii(Strip(if action.Some? then action.value else ""))
  }

  /** `User.objects.filter(email=..., is_superuser=True).first()`, users listed in key order. */
  function FirstSuperuserWithEmail(users: seq<User>, email: string): (r: Option<User>)
    ensures r.Some? ==> r.value in users && r.value.email == email && r.value.isSuperuser
    ensures r.Some? ==> exists i :: 0 <= i < |users| && users[i] == r.value &&
                                      (forall j :: 0 <= j < i ==> !(users[j].email == email && users[j].isSuperuser))
    ensures r.None? ==> forall i :: 0 <= i < |users| ==> !(users[i].email == email && users[i].isSuperuser)
  {
    if |users| == 0 then None
    else if users[0].email == email && users[0].isSuperuser then Some(users[0])
    else
      var rest := FirstSuperuserWithEmail(users[1..], email);
      assert rest.Some? ==> exists i :: 1 <= i < |users| && users[i] == rest.value &&
                                        (forall j :: 0 <= j < i ==> !(users[j].email == email && users[j].isSuperuser)) by {
        if rest.Some? {
          var i :| 0 <= i < |users[1..]| && users[1..][i] == rest.value &&
                   forall j :: 0 <= j < i ==> !(users[1..][j].email == email && users[1..][j].isSuperuser);
          assert users[i + 1] == rest.value;
          assert forall j :: 1 <= j < i + 1 ==> users[j] == users[1..][j - 1];
        }
      }
      rest
  }

  /** What a status-changing request leaves behind. */
  datatype StatusUpdate = StatusUpdate(response: Response, orders: OrderDb, notice: Option<NoticeDraft>)

  /** Stores an edited order row, running the pre-save hook against the stored rows. */
  function SaveOrder(db: OrderDb, pk: nat, instance: Order, now: Timestamp): OrderDb
  {
    db[pk := PreSave(instance, db, now)]
  }

  /** Whether the principal may change order pk: a superuser, or a seller with an item in it. */
  predicate MayUpdate(p: Principal, items: seq<OrderItem>, pk: nat)
    ensures MayUpdate(p, items, pk) <==>
              || IsSuperuser(p)
              || (p.Member? && p.sellerProfile.Some? &&
                  exists i :: 0 <= i < |items| && SoldIn(items[i], pk, p.sellerProfile.value))
  {
    assert p.Member? && p.sellerProfile.Some? ==>
             (HasItemsOf(items, pk, p.sellerProfile.value) <==>
                exists i :: 0 <= i < |items| && SoldIn(items[i], pk, p.sellerProfile.value)) by {
      if p.Member? && p.sellerProfile.Some? {
        HasItemsOfMeans(items, pk, p.sellerProfile.value);
      }
    }
    IsSuperuser(p) || (p.Member? && p.sellerProfile.Some? && HasItemsOf(items, pk, p.sellerProfile.value))
  }

  /**
   * The body of `update_order_status`, reached only through `seller_required`.
   * On its own it lets every superuser move any order along the transition
   * table; it changes an order only for a user allowed to update it, and it
   * notifies only after a change.
   */
  function UpdateOrderStatusView(
    p: Principal, isPost: bool, pk: nat, db: OrderDb, items: seq<OrderItem>,
    action: Option<string>, adminEmail: Option<string>, users: seq<User>, now: Timestamp): (r: StatusUpdate)
    ensures !isPost ==> r == StatusUpdate(Redirect(SellerDashboard), db, None)
    ensures isPost && pk !in db ==> r == StatusUpdate(NotFound, db, None)
    ensures r.orders != db ==> isPost && pk in db && MayUpdate(p, items, pk) && GuardedTarget(NormalizeAction(action), db[pk].status).Some?
    ensures IsSuperuser(p) && isPost && pk in db && GuardedTarget(NormalizeAction(action), db[pk].status).Some? ==> r.orders != db
    ensures r.notice.Some? ==> r.orders != db
    ensures r.orders != db ==> r.response == Redirect(SellerOrderDetail(pk))
  {
    if !isPost then StatusUpdate(Redirect(SellerDashboard), db, None)
    else if pk !in db then StatusUpdate(NotFound, db, None)
    else if !IsSuperuser(p) && (p.Anonymous? || p.sellerProfile.None?) then
      StatusUpdate(Redirect(SellerDashboard), db, None)
    else if !MayUpdate(p, items, pk) then StatusUpdate(Redirect(SellerOrderDetail(pk)), db, None)
    else
      var order := db[pk];
      match GuardedTarget(NormalizeAction(action), order.status)
      case None => StatusUpdate(Redirect(SellerOrderDetail(pk)), db, None)
      case Some(t) =>
        var changed := order.(status := t, dateShipped := if t == Shipped then Some(now) else order.dateShipped);
        var admin := if Truthy(adminEmail) then FirstSuperuserWithEmail(users, adminEmail.value) else None;
        var notice := if admin.Some? then Some(NoticeDraft(admin.value, StatusChanged(t), pk)) else None;
        assert PreSave(changed, db, now) == changed;
        assert changed != order by { GuardedNeverRegresses(NormalizeAction(action), order.status); }
        StatusUpdate(Redirect(SellerOrderDetail(pk)), SaveOrder(db, pk, changed, now), notice)
  }

  /**
   * `update_order_status` behind its `seller_required` decorator. The row
   * changes exactly when an active seller or superuser posts an action the
   * transition table allows for an order they may update; only then is an
   * administrator notified.
   */
  function UpdateOrderStatus(
    p: Principal, isPost: bool, pk: nat, db: OrderDb, items: seq<OrderItem>,
    action: Option<string>, adminEmail: Option<string>, users: seq<User>, now: Timestamp): (r: StatusUpdate)
    ensures r.orders != db <==>
              && ActiveSeller(p) && isPost && pk in db && MayUpdate(p, items, pk)
              && GuardedTarget(NormalizeAction(action), db[pk].status).Some?
    ensures r.orders != db ==>
              var t := GuardedTarget(NormalizeAction(action), db[pk].status).value;
              r.orders == db[pk := db[pk].(status := t, dateShipped := if t == Shipped then Some(now) else db[pk].dateShipped)]
    ensures r.notice.Some? ==> r.orders != db
    ensures r.notice.Some? ==>
              && Truthy(adminEmail) && r.notice.value.recipient.isSuperuser
              && r.notice.value.recipient.email == adminEmail.value && r.notice.value.orderId == pk
    ensures r.orders != db && Truthy(adminEmail) && FirstSuperuserWithEmail(users, adminEmail.value).Some? ==>
              r.notice == Some(NoticeDraft(FirstSuperuserWithEmail(users, adminEmail.value).value,
                                           StatusChanged(GuardedTarget(NormalizeAction(action), db[pk].status).value), pk))
    ensures ActiveSeller(p) && isPost && pk in db && !MayUpdate(p, items, pk) ==>
              r.response == Redirect(SellerOrderDetail(pk))
    ensures !ActiveSeller(p) ==> r.response.Redirect? && (r.response.to == Home || r.response.to == SellerLogin)
    ensures r.orders != db ==> r.response == Redirect(SellerOrderDetail(pk))
  {
    var view := (q: Principal) => UpdateOrderStatusView(q, isPost, pk, db, items, action, adminEmail, users, now);
    match SellerRequired(p, view)
    case Admit(result) =>
      assert result == view(p);
      if result.orders != db then
        var order := db[pk];
        var t := GuardedTarget(NormalizeAction(action), order.status).value;
        var changed := order.(status := t, dateShipped := if t == Shipped then Some(now) else order.dateShipped);
        assert PreSave(changed, db, now) == changed;
        assert changed != order by { GuardedNeverRegresses(NormalizeAction(action), order.status); }
        result
      else result
    case Refuse(to) => StatusUpdate(Redirect(to), db, None)
  }

  /** A superuser without an active seller profile is stopped by the decorator before the superuser branch. */
  lemma SuperuserNeedsSellerProfile(
    u: User, isPost: bool, pk: nat, db: OrderDb, items: seq<OrderItem>,
    action: Option<string>, adminEmail: Option<string>, users: seq<User>, now: Timestamp)
    requires u.isSuperuser
    ensures UpdateOrderStatus(Member(u, None), isPost, pk, db, items, action, adminEmail, users, now)
            == StatusUpdate(Redirect(SellerLogin), db, None)
  {
  }

  /** The seller order detail page: its response, the order table after it, and the figures it shows. */
  datatype DetailResult = DetailResult(response: Response, orders: OrderDb, totals: Option<Totals>)

  /** The four codes the seller detail page accepts as a new status, compared exactly. */
  function DetailTarget(action: Option<string>): (r: Option<Status>)
    ensures r.Some? <==> action.Some? && action.value in ["processing", "shipped", "delivered", "cancelled"]
    ensures r.Some? ==> Code(r.value) == action.value
  {
    if action.Some? && action.value in ["processing", "shipped", "delivered", "cancelled"] then
      ParseStatus(action.value)
    else None
  }

  /**
   * `seller_order_detail`. Superusers see the whole order with the full-view
   * figures and never change it; a seller needs an item in the order, sees
   * only their items, and a POST assigns the posted status with no
   * transition check and no `is_active` check.
   */
  function SellerOrderDetailView(
    p: Principal, isPost: bool, pk: nat, db: OrderDb, items: seq<OrderItem>,
    action: Option<string>, now: Timestamp): (r: DetailResult)
    ensures r.orders != db ==>
              && p.Member? && !p.user.isSuperuser && p.sellerProfile.Some? && isPost && pk in db
              && HasItemsOf(items, pk, p.sellerProfile.value) && DetailTarget(action).Some?
    ensures r.orders != db ==>
              var t := DetailTarget(action).value;
              r.orders == db[pk := db[pk].(status := t, dateShipped := if t == Shipped then Some(now) else db[pk].dateShipped)]
    ensures p.Member? && !p.user.isSuperuser && p.sellerProfile.Some? && isPost && pk in db
            && HasItemsOf(items, pk, p.sellerProfile.value) && DetailTarget(action).Some? ==>
              var t := DetailTarget(action).value;
              && r.orders == db[pk := db[pk].(status := t, dateShipped := if t == Shipped then Some(now) else db[pk].dateShipped)]
              && r.response == Redirect(SellerOrderDetail(pk))
    ensures IsSuperuser(p) && pk in db && |ItemsOfOrder(items, pk)| > 0 ==>
              r == DetailResult(Rendered, db, Some(FullViewTotals(ItemsOfOrder(items, pk))))
    ensures IsSuperuser(p) && pk in db && |ItemsOfOrder(items, pk)| == 0 ==>
              r == DetailResult(ServerError, db, None)
    ensures r.totals.Some? && !IsSuperuser(p) ==>
              p.Member? && p.sellerProfile.Some? && r.totals.value == SellerViewTotals(SellerItemsOfOrder(items, pk, p.sellerProfile.value))
    ensures p.Anonymous? ==> r == DetailResult(Redirect(Login), db, None)
    ensures p.Member? && pk !in db ==> r == DetailResult(NotFound, db, None)
    ensures p.Member? && !p.user.isSuperuser && pk in db
            && (p.sellerProfile.None? || !HasItemsOf(items, pk, p.sellerProfile.value)) ==>
              r == DetailResult(Forbidden, db, None)
    ensures p.Member? && !p.user.isSuperuser && p.sellerProfile.Some? && pk in db
            && HasItemsOf(items, pk, p.sellerProfile.value) && !isPost ==>
              r == DetailResult(Rendered, db, Some(SellerViewTotals(SellerItemsOfOrder(items, pk, p.sellerProfile.value))))
    ensures p.Member? && !p.user.isSuperuser && p.sellerProfile.Some? && pk in db
            && HasItemsOf(items, pk, p.sellerProfile.value) && isPost && DetailTarget(action).None? ==>
              r == DetailResult(Redirect(SellerOrderDetail(pk)), db, None)
  {
    if p.Anonymous? then DetailResult(Redirect(Login), db, None)
    else if pk !in db then DetailResult(NotFound, db, None)
    else if p.user.isSuperuser then
      var all := ItemsOfOrder(items, pk);
      if |all| == 0 then DetailResult(ServerError, db, None)
      else DetailResult(Rendered, db, Some(FullViewTotals(all)))
    else if p.sellerProfile.None? then DetailResult(Forbidden, db, None)
    else
      var own := SellerItemsOfOrder(items, pk, p.sellerProfile.value);
      if |own| == 0 then DetailResult(Forbidden, db, None)
      else
        var totals := SellerViewTotals(own);
        if !isPost then DetailResult(Rendered, db, Some(totals))
        else match DetailTarget(action)
          case None => DetailResult(Redirect(SellerOrderDetail(pk)), db, None)
          case Some(t) =>
            var order := db[pk];
            var changed := order.(status := t, dateShipped := if t == Shipped then Some(now) else order.dateShipped);
            assert PreSave(changed, db, now) == changed;
            DetailResult(Redirect(SellerOrderDetail(pk)), SaveOrder(db, pk, changed, now), None)
  }

  /** The administrator dashboards' POST outcome. */
  datatype DashResult = DashResult(response: Response, orders: OrderDb)

  /**
   * `Order.objects.get(id=num)`: a missing `num` or a key with no row is
   * DoesNotExist (`None`); text `int()` rejects is a ValueError the view does
   * not catch (`Err`).
   */
  function LookupPosted(db: OrderDb, num: Option<string>): (r: Result<Option<nat>, string>)
    ensures r.Ok? && r.value.Some? ==> r.value.value in db
    ensures r.Err? <==> num.Some? && ParseInt(num.value).None?
    ensures num.Some? && ParseInt(num.value).Some? && ParseInt(num.value).value >= 0 && ParseInt(num.value).value in db
            ==> r == Ok(Some(ParseInt(num.value).value))
  {
    if num.None? then Ok(None)
    else match ParseInt(num.value)
      case None => Err(num.value)
      case Some(k) => if k >= 0 && k in db then Ok(Some(k)) else Ok(None)
  }
  /**
   * An order number next to a file separator (U+001C) is a server error, while
   * the same number after a tab is looked up as usual.
   */
  lemma LookupPostedRejectsSeparator(db: OrderDb)
    ensures LookupPosted(db, Some("\U{1c}5")).Err?
    ensures 5 in db ==> LookupPosted(db, Some("\t5")) == Ok(Some(5))
  {
    IntRejectsSeparators();
    IntSkipsSpaces();
    assert IntTrim("\t5") == "5" by {
      assert TrimBy("\t5", IsIntSpace) == TrimBy("5", IsIntSpace);
    }
    AsciiDigit('5');
  }


  /**
   * POST to `not_shipped_dash`: `ship` assigns shipped and overwrites the ship
   * date, `cancel` assigns cancelled with the posted reason (default
   * "Cancelled by admin"), whatever the current status.
   */
  function NotShippedDashPost(
    p: Principal, num: Option<string>, action: Option<string>, reason: Option<string>,
    db: OrderDb, now: Timestamp): (r: DashResult)
    ensures !IsSuperuser(p) ==> r == DashResult(Redirect(Home), db)
    ensures r.orders != db ==> IsSuperuser(p) && LookupPosted(db, num).Ok? && LookupPosted(db, num).value.Some?
    ensures IsSuperuser(p) && LookupPosted(db, num).Ok? && LookupPosted(db, num).value.Some? ==>
              var k := LookupPosted(db, num).value.value;
              && (action == Some("ship") ==> r.orders == db[k := db[k].(status := Shipped, dateShipped := Some(now))])
              && (action == Some("cancel") ==>
                    r.orders == db[k := db[k].(status := Cancelled,
                                              cancellationNotes := Some(if reason.Some? then reason.value else "Cancelled by admin"))])
              && (action != Some("ship") && action != Some("cancel") ==> r.orders == db)
    ensures IsSuperuser(p) ==> (r.response == ServerError <==> LookupPosted(db, num).Err?)
    ensures IsSuperuser(p) && LookupPosted(db, num).Ok? ==> r.response == Redirect(NotShippedDash)
  {
    if !IsSuperuser(p) then DashResult(Redirect(Home), db)
    else match LookupPosted(db, num)
      case Err(_) => DashResult(ServerError, db)
      case Ok(None) => DashResult(Redirect(NotShippedDash), db)
      case Ok(Some(k)) =>
        var order := db[k];
        if action == Some("ship") then
          var changed := order.(status := Shipped, dateShipped := Some(now));
          assert PreSave(changed, db, now) == changed;
          DashResult(Redirect(NotShippedDash), SaveOrder(db, k, changed, now))
        else if action == Some("cancel") then
          var notes := if reason.Some? then reason.value else "Cancelled by admin";
          var changed := order.(status := Cancelled, cancellationNotes := Some(notes));
          assert PreSave(changed, db, now) == changed;
          DashResult(Redirect(NotShippedDash), SaveOrder(db, k, changed, now))
        else DashResult(Redirect(NotShippedDash), db)
  }

  /**
   * POST to `shipped_dash`: `deliver` assigns delivered and `process` assigns
   * processing, whatever the current status, stamping nothing.
   */
  function ShippedDashPost(p: Principal, num: Option<string>, action: Option<string>, db: OrderDb, now: Timestamp): (r: DashResult)
    ensures !IsSuperuser(p) ==> r == DashResult(Redirect(Home), db)
    ensures r.orders != db ==> IsSuperuser(p) && LookupPosted(db, num).Ok? && LookupPosted(db, num).value.Some?
    ensures IsSuperuser(p) && LookupPosted(db, num).Ok? && LookupPosted(db, num).value.Some? ==>
              var k := LookupPosted(db, num).value.value;
              && (action == Some("deliver") ==> r.orders == db[k := db[k].(status := Delivered)])
              && (action == Some("process") ==> r.orders == db[k := db[k].(status := Processing)])
              && (action != Some("deliver") && action != Some("process") ==> r.orders == db)
    ensures IsSuperuser(p) ==> (r.response == ServerError <==> LookupPosted(db, num).Err?)
    ensures IsSuperuser(p) && LookupPosted(db, num).Ok? ==> r.response == Redirect(ShippedDash)
  {
    if !IsSuperuser(p) then DashResult(Redirect(Home), db)
    else match LookupPosted(db, num)
      case Err(_) => DashResult(ServerError, db)
      case Ok(None) => DashResult(Redirect(ShippedDash), db)
      case Ok(Some(k)) =>
        var order := db[k];
        if action == Some("deliver") || action == Some("process") then
          var changed := order.(status := if action == Some("deliver") then Delivered else Processing);
          assert PreSave(changed, db, now) == changed;
          DashResult(Redirect(ShippedDash), SaveOrder(db, k, changed, now))
        else DashResult(Redirect(ShippedDash), db)
  }

  /**
   * `cancel_order`: any POST cancels the order, whatever its status and
   * whoever sends it; the view never looks at the requesting user. No URL
   * pattern routes to it (the one in payment/urls.py is commented out).
   */
  function CancelOrder(isPost: bool, orderId: nat, db: OrderDb, now: Timestamp): (r: DashResult)
    ensures !isPost ==> r == DashResult(Redirect(SellerOrderDetail(orderId)), db)
    ensures isPost && orderId !in db ==> r == DashResult(NotFound, db)
    ensures isPost && orderId in db ==>
              r == DashResult(Redirect(SellerOrderDetail(orderId)),
                              db[orderId := db[orderId].(status := Cancelled, cancellationNotes := Some("Cancelled by seller."))])
  {
    if !isPost then DashResult(Redirect(SellerOrderDetail(orderId)), db)
    else if orderId !in db then DashResult(NotFound, db)
    else
      var changed := db[orderId].(status := Cancelled, cancellationNotes := Some("Cancelled by seller."));
      assert PreSave(changed, db, now) == changed;
      DashResult(Redirect(SellerOrderDetail(orderId)), SaveOrder(db, orderId, changed, now))
  }

  /**
   * The dashboard's `process` action returns a shipped order to processing,
   * a move the guarded table refuses.
   */
  lemma ShippedDashBypassesGuard(u: User, pk: nat, db: OrderDb, now: Timestamp)
    requires u.isSuperuser && pk in db && db[pk].status == Shipped
    ensures ShippedDashPost(Member(u, None), Some(IntToString(pk)), Some("process"), db, now).orders[pk].status == Processing
    ensures GuardedTarget("processing", db[pk].status).None?
  {
    IntToStringRoundTrip(pk);
  }

  /** `ship` on the unshipped dashboard ships even a cancelled order. */
  lemma NotShippedDashShipsCancelled(u: User, pk: nat, db: OrderDb, now: Timestamp)
    requires u.isSuperuser && pk in db && db[pk].status == Cancelled
    ensures NotShippedDashPost(Member(u, None), Some(IntToString(pk)), Some("ship"), None, db, now).orders[pk].status == Shipped
    ensures GuardedTarget("shipped", db[pk].status).None?
  {
    IntToStringRoundTrip(pk);
  }

  /**
   * `cancel_order` would cancel a delivered order, which the guarded table
   * refuses; the bypass is latent while the view has no route.
   */
  lemma CancelOrderBypassesGuard(pk: nat, db: OrderDb, now: Timestamp)
    requires pk in db && db[pk].status == Delivered
    ensures CancelOrder(true, pk, db, now).orders[pk].status == Cancelled
    ensures GuardedTarget("cancelled", db[pk].status).None?
  {
  }

  /**
   * On the detail page a seller with an item in a delivered order can move it
   * back to processing, even with an inactive seller profile.
   */
  lemma DetailPageBypassesGuard(u: User, s: Seller, pk: nat, db: OrderDb, items: seq<OrderItem>, now: Timestamp)
    requires !u.isSuperuser && !s.isActive
    requires pk in db && db[pk].status == Delivered && HasItemsOf(items, pk, s)
    ensures SellerOrderDetailView(Member(u, Some(s)), true, pk, db, items, Some("processing"), now).orders[pk].status == Processing
    ensures !ActiveSeller(Member(u, Some(s)))
    ensures GuardedTarget("processing", db[pk].status).None?
  {
  }

  /** Every line names a product; the export reads each line's product name. */
  predicate AllHaveProducts(lines: seq<OrderItem>)
  {
    forall i :: 0 <= i < |lines| ==> lines[i].product.Some?
  }

  /** The exported lines' totals, or a server error when a line has no product. */
  function ExportOf(lines: seq<OrderItem>): (r: Result<Totals, Response>)
    ensures r.Ok? <==> AllHaveProducts(lines)
    ensures r.Ok? ==> r.value == FullViewTotals(lines)
    ensures r.Err? ==> r.error == ServerError
  {
    if AllHaveProducts(lines) then Ok(FullViewTotals(lines)) else Err(ServerError)
  }

  /**
   * The figures `export_order_details` writes: all of the order's items for a
   * superuser, only their own for a seller (active or not) with an item in it;
   * anyone else gets the 403 refusal, and a line without a product (the field
   * is nullable) makes the text rendering raise, a server error. The net is
   * rounded once from the exact difference, as on the administrator's detail
   * page.
   */
  function ExportTotals(p: Principal, pk: nat, db: OrderDb, items: seq<OrderItem>): (r: Result<Totals, Response>)
    ensures p.Anonymous? ==> r == Err(Redirect(Login))
    ensures p.Member? && pk !in db ==> r == Err(NotFound)
    ensures IsSuperuser(p) && pk in db && AllHaveProducts(ItemsOfOrder(items, pk)) ==>
              r == Ok(FullViewTotals(ItemsOfOrder(items, pk)))
    ensures IsSuperuser(p) && pk in db && !AllHaveProducts(ItemsOfOrder(items, pk)) ==> r == Err(ServerError)
    ensures p.Member? && !p.user.isSuperuser && pk in db ==>
              (r.Ok? <==> p.sellerProfile.Some? && HasItemsOf(items, pk, p.sellerProfile.value)
                          && AllHaveProducts(SellerItemsOfOrder(items, pk, p.sellerProfile.value)))
    ensures p.Member? && !p.user.isSuperuser && pk in db
            && (p.sellerProfile.None? || !HasItemsOf(items, pk, p.sellerProfile.value)) ==>
              r == Err(Forbidden)
    ensures r.Ok? && !IsSuperuser(p) ==>
              p.Member? && p.sellerProfile.Some? && r.value == FullViewTotals(SellerItemsOfOrder(items, pk, p.sellerProfile.value))
    ensures r.Err? && p.Member? && pk in db ==> r.error == Forbidden || r.error == ServerError
  {
    if p.Anonymous? then Err(Redirect(Login))
    else if pk !in db then Err(NotFound)
    else if p.user.isSuperuser then ExportOf(ItemsOfOrder(items, pk))
    else if p.sellerProfile.Some? && HasItemsOf(items, pk, p.sellerProfile.value) then
      ExportOf(SellerItemsOfOrder(items, pk, p.sellerProfile.value))
    else Err(Forbidden)
  }


  /**
   * A seller's export succeeds exactly when each of their lines still has a
   * product, and then shows the same figures as their detail page whenever
   * every line carries the standard 15% rate.
   */
  lemma ExportMatchesDetailAtStandardRate(u: User, s: Seller, pk: nat, db: OrderDb, items: seq<OrderItem>, now: Timestamp)
    requires !u.isSuperuser && pk in db && HasItemsOf(items, pk, s)
    requires forall i :: 0 <= i < |items| ==> items[i].commissionRate == DefaultCommissionRate
    ensures ExportTotals(Member(u, Some(s)), pk, db, items).Ok? <==> AllHaveProducts(SellerItemsOfOrder(items, pk, s))
    ensures ExportTotals(Member(u, Some(s)), pk, db, items).Ok? ==>
              SellerOrderDetailView(Member(u, Some(s)), false, pk, db, items, None, now).totals
              == Some(ExportTotals(Member(u, Some(s)), pk, db, items).value)
  {
    var own := SellerItemsOfOrder(items, pk, s);
    forall i | 0 <= i < |own|
      ensures own[i].commissionRate == DefaultCommissionRate
    {
      assert own[i] in items;
    }
    NetsAgreeAtStandardRate(own);
  }
}

=== FILE: payment_models.dfy ===
/**
 * Orders, order items, notifications and impact-fund ledger rows
 * (payment/models.py), with the status-stamping method, the pre-save hook
 * and the commission computation done on every item save.
 */
module PaymentModels {
  import opened Base
  import opened Money
  import opened Accounts
  import opened StoreModels
  import opened Seqs

  /** `timezone.now()` is passed in; the model never reads a clock. */
  type Timestamp = int

  /** The six keys of `Order.ORDER_STATUS`. */
  datatype Status = Pending | Paid | Processing | Shipped | Delivered | Cancelled

  /** The code stored in the `status` column. */
  function Code(s: Status): string
  {
    match s
    case Pending => "pending"
    case Paid => "paid"
    case Processing => "processing"
    case Shipped => "shipped"
    case Delivered => "delivered"
    case Cancelled => "cancelled"
  }

  /** Looks a code up among the `ORDER_STATUS` keys (exact, case-sensitive match). */
  function ParseStatus(code: string): (r: Option<Status>)
    ensures r.Some? ==> Code(r.value) == code
    ensures r.None? ==> forall s: Status :: Code(s) != code
  {
    if code == "pending" then Some(Pending)
    else if code == "paid" then Some(Paid)
    else if code == "processing" then Some(Processing)
    else if code == "shipped" then Some(Shipped)
    else if code == "delivered" then Some(Delivered)
    else if code == "cancelled" then Some(Cancelled)
    else None
  }

  /** Every status survives a trip through its stored code. */
  lemma StatusCodeRoundTrip(s: Status)
    ensures ParseStatus(Code(s)) == Some(s)
  {
  }

  /**
   * An order row. `id` is the primary key (`None` until the first save);
   * money in cents; the shipping text, names and phone are left out.
   */
  datatype Order = Order(
    id: Option<nat>,
    user: Option<User>,
    email: string,
    amountPaid: int,
    status: Status,
    paymentMethod: Option<string>,
    datePaid: Option<Timestamp>,
    dateProcessed: Option<Timestamp>,
    dateShipped: Option<Timestamp>,
    dateDelivered: Option<Timestamp>,
    cancellationNotes: Option<string>)

  /** The order table: rows by primary key. */
  type OrderDb = map<nat, Order>

  /** The four per-status timestamps, in the order paid, processed, shipped, delivered. */
  function Dates(o: Order): (r: seq<Option<Timestamp>>)
    ensures |r| == 4
  {
    [o.datePaid, o.dateProcessed, o.dateShipped, o.dateDelivered]
  }

  /** Which of the four timestamps entering status s stamps, if any. */
  function StampSlot(s: Status): (r: Option<nat>)
    ensures r.Some? ==> r.value < 4
    ensures r.None? <==> s == Pending || s == Cancelled
  {
    match s
    case Paid => Some(0)
    case Processing => Some(1)
    case Shipped => Some(2)
    case Delivered => Some(3)
    case _ => None
  }

  /** o and o' agree on every field except possibly the status and the four timestamps. */
  predicate SameRecord(o: Order, o': Order)
  {
    o' == o.(status := o'.status, datePaid := o'.datePaid, dateProcessed := o'.dateProcessed,
             dateShipped := o'.dateShipped, dateDelivered := o'.dateDelivered)
  }

  /** The order with timestamp slot i set to t if it was unset. */
  function StampIfUnset(o: Order, i: nat, t: Timestamp): Order
    requires i < 4
  {
    if i == 0 then (if o.datePaid.None? then o.(datePaid := Some(t)) else o)
    else if i == 1 then (if o.dateProcessed.None? then o.(dateProcessed := Some(t)) else o)
    else if i == 2 then (if o.dateShipped.None? then o.(dateShipped := Some(t)) else o)
    else (if o.dateDelivered.None? then o.(dateDelivered := Some(t)) else o)
  }

  /**
   * `Order.update_status` before its final `save()`: an unknown code raises
   * (the error carries the code); otherwise the status becomes the code's
   * status and the matching timestamp is stamped only if it was unset.
   */
  function UpdateStatus(o: Order, code: string, now: Timestamp): (r: Result<Order, string>)
    ensures r.Err? <==> ParseStatus(code).None?
    ensures r.Err? ==> r.error == code
    ensures r.Ok? ==> Code(r.value.status) == code && SameRecord(o, r.value)
    ensures r.Ok? ==> forall i :: 0 <= i < 4 && StampSlot(r.value.status) != Some(i) ==> Dates(r.value)[i] == Dates(o)[i]
    ensures r.Ok? ==> forall i :: 0 <= i < 4 && Dates(o)[i].Some? ==> Dates(r.value)[i] == Dates(o)[i]
    ensures r.Ok? && StampSlot(r.value.status).Some? ==> Dates(r.value)[StampSlot(r.value.status).value].Some?
    ensures r.Ok? ==> forall i :: 0 <= i < 4 && Dates(r.value)[i] != Dates(o)[i] ==> Dates(r.value)[i] == Some(now)
  {
    match ParseStatus(code)
    case None => Err(code)
    case Some(s) =>
      var o' := o.(status := s);
      match StampSlot(s)
      case None => Ok(o')
      case Some(i) => Ok(StampIfUnset(o', i, now))
  }

  /** At most one timestamp changes per call, and none when entering pending or cancelled. */
  lemma UpdateStatusStampsAtMostOne(o: Order, code: string, now: Timestamp)
    requires UpdateStatus(o, code, now).Ok?
    ensures var o' := UpdateStatus(o, code, now).value;
            forall i, j :: 0 <= i < j < 4 ==> Dates(o')[i] == Dates(o)[i] || Dates(o')[j] == Dates(o)[j]
    ensures var o' := UpdateStatus(o, code, now).value;
            (o'.status == Pending || o'.status == Cancelled) ==> Dates(o') == Dates(o)
  {
    var o' := UpdateStatus(o, code, now).value;
    if o'.status == Pending || o'.status == Cancelled {
      assert forall i :: 0 <= i < 4 ==> Dates(o')[i] == Dates(o)[i];
    }
  }

  /** Whether the order has a primary key Python treats as set (`if not instance.pk`). */
  predicate Persisted(o: Order)
  {
    o.id.Some? && o.id.value != 0
  }

  /**
   * `set_shipped_date_on_update`, run before every `Order.save()`; `stored`
   * maps primary keys to the rows currently in the database.
   */
  function PreSave(instance: Order, stored: map<nat, Order>, now: Timestamp): (r: Order)
    ensures r == instance.(dateShipped := r.dateShipped)
    ensures r != instance <==>
              && Persisted(instance) && instance.id.value in stored
              && stored[instance.id.value].status != Shipped
              && instance.status == Shipped && instance.dateShipped.None?
    ensures r != instance ==> r.dateShipped == Some(now)
  {
    if !Persisted(instance) then instance
    else if instance.id.value !in stored then instance
    else if stored[instance.id.value].status != Shipped && instance.status == Shipped && instance.dateShipped.None? then
      instance.(dateShipped := Some(now))
    else instance
  }

  /** Saving after `update_status` never triggers the hook: the method already stamped. */
  lemma UpdateStatusMakesHookIdle(o: Order, code: string, now: Timestamp, stored: map<nat, Order>, later: Timestamp)
    requires UpdateStatus(o, code, now).Ok?
    ensures PreSave(UpdateStatus(o, code, now).value, stored, later) == UpdateStatus(o, code, now).value
  {
    var o' := UpdateStatus(o, code, now).value;
    if o'.status == Shipped {
      assert Dates(o')[2].Some?;
    }
  }

  /**
   * An order line. `price` in cents, `commissionRate` in 1/10000,
   * `commissionAmount` in cents; `orderId` is the order's primary key.
   */
  datatype OrderItem = OrderItem(
    orderId: Option<nat>,
    product: Option<Product>,
    user: Option<User>,
    quantity: nat,
    price: int,
    commissionRate: int,
    commissionAmount: int,
    seller: Option<Seller>)

  /** The default `commission_rate`, 0.15. */
  const DefaultCommissionRate: int := 1500

  /** price x quantity in cents: `Decimal(price) * Decimal(quantity)`. */
  function LineTotal(it: OrderItem): int
  {
    it.price * it.quantity
  }

  /** price x quantity x rate, exact, in millionths. */
  function ExactCommission(it: OrderItem): int
  {
    LineTotal(it) * it.commissionRate
  }

  /**
   * `OrderItem.save`: copies the product's seller when the product has one,
   * and recomputes `commission_amount` as the exact commission rounded half
   * to even to a cent. Nothing else changes.
   */
  function SaveItem(it: OrderItem): (r: OrderItem)
    ensures it.product.Some? && it.product.value.seller.Some? ==> r.seller == it.product.value.seller
    ensures !(it.product.Some? && it.product.value.seller.Some?) ==> r.seller == it.seller
    ensures IsHalfEvenRounding(ExactCommission(it), RateScale, r.commissionAmount)
    ensures r == it.(seller := r.seller, commissionAmount := r.commissionAmount)
  {
    var seller := if it.product.Some? && it.product.value.seller.Some? then it.product.value.seller else it.seller;
    it.(seller := seller, commissionAmount := RoundHalfEven(ExactCommission(it), RateScale))
  }

  /** Saving again with the same price, quantity and rate leaves the item as it is. */
  lemma SaveItemIdempotent(it: OrderItem)
    ensures SaveItem(SaveItem(it)) == SaveItem(it)
  {
    var once := SaveItem(it);
    HalfEvenUnique(ExactCommission(it), RateScale, once.commissionAmount, SaveItem(once).commissionAmount);
  }

  /** `get_seller_earnings`: the line total minus the stored commission, in cents. */
  function SellerEarnings(it: OrderItem): (r: int)
    ensures r + it.commissionAmount == LineTotal(it)
  {
    LineTotal(it) - it.commissionAmount
  }

  /**
   * For a saved item the seller's earnings are within half a cent of the exact
   * line total x (1 - rate), and earnings plus commission are the whole line.
   */
  lemma EarningsNearExactNet(it: OrderItem)
    ensures var s := SaveItem(it);
            2 * Abs(SellerEarnings(s) * RateScale - LineTotal(it) * (RateScale - it.commissionRate)) <= RateScale
  {
    var s := SaveItem(it);
    var c := s.commissionAmount;
    var t := LineTotal(it);
    assert SellerEarnings(s) == t - c;
    assert (t - c) * RateScale - t * (RateScale - it.commissionRate) == ExactCommission(it) - c * RateScale;
    assert Abs((t - c) * RateScale - t * (RateScale - it.commissionRate)) == Abs(ExactCommission(it) - c * RateScale);
  }

  /** `OrderItem.objects.filter(order=pk)`. */
  function ItemsOfOrder(items: seq<OrderItem>, pk: nat): (r: seq<OrderItem>)
    ensures forall i :: 0 <= i < |r| ==> r[i] in items && r[i].orderId == Some(pk)
    ensures forall i :: 0 <= i < |items| && items[i].orderId == Some(pk) ==> items[i] in r
  {
    Filter(items, (it: OrderItem) => it.orderId == Some(pk))
  }

  /** Whether item `it` belongs to order pk and is sold by seller s (foreign keys compare by key). */
  predicate SoldIn(it: OrderItem, pk: nat, s: Seller)
  {
    it.orderId == Some(pk) && it.seller.Some? && it.seller.value.id == s.id
  }

  /** `OrderItem.objects.filter(order=pk, seller=s)`. */
  function SellerItemsOfOrder(items: seq<OrderItem>, pk: nat, s: Seller): (r: seq<OrderItem>)
    ensures forall i :: 0 <= i < |r| ==> r[i] in items && SoldIn(r[i], pk, s)
    ensures forall i :: 0 <= i < |items| && SoldIn(items[i], pk, s) ==> items[i] in r
  {
    Filter(items, (it: OrderItem) => SoldIn(it, pk, s))
  }

  /** `OrderItem.objects.filter(order=pk, seller=s).exists()`. */
  predicate HasItemsOf(items: seq<OrderItem>, pk: nat, s: Seller)
  {
    |SellerItemsOfOrder(items, pk, s)| > 0
  }

  /** The ownership query holds exactly when some item of the order is sold by s. */
  lemma HasItemsOfMeans(items: seq<OrderItem>, pk: nat, s: Seller)
    ensures HasItemsOf(items, pk, s) <==> exists i :: 0 <= i < |items| && SoldIn(items[i], pk, s)
  {
    var r := SellerItemsOfOrder(items, pk, s);
    if |r| > 0 {
      assert r[0] in items;
      var i :| 0 <= i < |items| && items[i] == r[0];
      assert SoldIn(items[i], pk, s);
    }
  }

  /** The text of an in-app notification, by kind. */
  datatype NoticeKind =
    | NewOrderForAdmin
    | NewOrderForSeller(lines: nat)
    | SellerUnreachable
    | StatusChanged(status: Status)

  /** A notification a view or the fan-out asks to create (`create_notification`). */
  datatype NoticeDraft = NoticeDraft(recipient: User, kind: NoticeKind, orderId: nat)

  /** An in-app `Notification` row; `recipient` is the user's id. */
  datatype Notification = Notification(
    id: nat,
    recipient: nat,
    kind: NoticeKind,
    orderId: Option<int>,
    isRead: bool,
    createdAt: Timestamp)

  datatype TxnKind = Commission | Donation | Expense

  /** An `ImpactFundTransaction` ledger row; `amount` in cents, negative for expenses. */
  datatype ImpactTxn = ImpactTxn(kind: TxnKind, amount: int, user: Option<User>, isActive: bool)
}

=== FILE: seller_totals.dfy ===
/**
 * Order totals shown to sellers and administrators: the seller order detail
 * page (payment/views.py:158-201) and the text export
 * (payment/views.py:735-779). Sums are taken unrounded, then quantized.
 */
module SellerTotals {
  import opened Base
  import opened Money
  import opened PaymentModels

  /** Sum of price x quantity over the items, in cents. */
  function SumLineTotals(items: seq<OrderItem>): int
  {
    if |items| == 0 then 0 else SumLineTotals(items[..|items| - 1]) + LineTotal(items[|items| - 1])
  }

  /** Sum of price x quantity x rate over the items, exact, in millionths. */
  function SumExactCommission(items: seq<OrderItem>): int
  {
    if |items| == 0 then 0 else SumExactCommission(items[..|items| - 1]) + ExactCommission(items[|items| - 1])
  }

  /** The three figures a page shows, in cents. */
  datatype Totals = Totals(subtotal: int, commission: int, net: int)

  /** Quantizing a subtotal that is already a whole number of cents. */
  function QuantizeCents(cents: int): (r: int)
    ensures r == cents
  {
    RoundExact(cents, RateScale);
    RoundHalfEven(cents * RateScale, RateScale)
  }

  /**
   * The seller branch: subtotal and commission are quantized first, and the
   * net is the difference of the two quantized figures.
   */
  function SellerViewTotals(items: seq<OrderItem>): (t: Totals)
    ensures t.subtotal == SumLineTotals(items)
    ensures IsHalfEvenRounding(SumExactCommission(items), RateScale, t.commission)
    ensures t.net + t.commission == t.subtotal
  {
    var subtotal := QuantizeCents(SumLineTotals(items));
    var commission := RoundHalfEven(SumExactCommission(items), RateScale);
    Totals(subtotal, commission, QuantizeCents(subtotal - commission))
  }

  /**
   * The administrator branch and the export: the net is the unrounded
   * difference, quantized once.
   */
  function FullViewTotals(items: seq<OrderItem>): (t: Totals)
    ensures t.subtotal == SumLineTotals(items)
    ensures IsHalfEvenRounding(SumExactCommission(items), RateScale, t.commission)
    ensures IsHalfEvenRounding(SumLineTotals(items) * RateScale - SumExactCommission(items), RateScale, t.net)
  {
    var subtotal := SumLineTotals(items);
    var commission := SumExactCommission(items);
    Totals(QuantizeCents(subtotal), RoundHalfEven(commission, RateScale),
           RoundHalfEven(subtotal * RateScale - commission, RateScale))
  }

  /** At one uniform rate the exact commission is the subtotal times that rate. */
  lemma {:induction false} UniformRateCommission(items: seq<OrderItem>, rate: int)
    requires forall i :: 0 <= i < |items| ==> items[i].commissionRate == rate
    ensures SumExactCommission(items) == SumLineTotals(items) * rate
  {
    if |items| > 0 {
      var init := items[..|items| - 1];
      UniformRateCommission(init, rate);
      var last := items[|items| - 1];
      assert ExactCommission(last) == LineTotal(last) * rate;
      assert (SumLineTotals(init) + LineTotal(last)) * rate == SumLineTotals(init) * rate + LineTotal(last) * rate;
    }
  }

  /**
   * With every rate at the standard 0.15, both ways of computing the net agree,
   * so sellers and administrators see the same three figures.
   */
  lemma NetsAgreeAtStandardRate(items: seq<OrderItem>)
    requires forall i :: 0 <= i < |items| ==> items[i].commissionRate == DefaultCommissionRate
    ensures SellerViewTotals(items) == FullViewTotals(items)
  {
    var s := SumLineTotals(items);
    UniformRateCommission(items, DefaultCommissionRate);
    var x := s * 1500;
    var r := RoundHalfEven(x, RateScale);
    if s % 2 != 0 {
      NoTieAtStandardRate(s, r);
    }
    RoundComplement(s, x, RateScale);
  }

  /** 15% of an odd number of cents is never exactly half a cent away from a whole cent. */
  lemma NoTieAtStandardRate(s: int, r: int)
    requires s % 2 != 0
    ensures 2 * Abs(s * 1500 - r * RateScale) != RateScale
  {
    var m := 3 * s - 20 * r;
    assert m % 2 == 1;
    assert s * 1500 - r * RateScale == 500 * m;
  }

  /** One line with a half-cent commission: the two ways of computing the net differ. */
  const HalfCentLine: OrderItem := OrderItem(None, None, None, 1, 1, 5000, 0, None)

  /**
   * At a rate other than 0.15 (editable per item by administrators) the
   * seller page and the administrator page or export can show nets a cent apart.
   */
  lemma NetsMayDiffer()
    ensures SellerViewTotals([HalfCentLine]).net == 1
    ensures FullViewTotals([HalfCentLine]).net == 0
  {
    var items := [HalfCentLine];
    assert items[..0] == [];
    assert SumLineTotals(items) == 1;
    assert SumExactCommission(items) == 5000;
    HalfEvenUnique(5000, RateScale, 0, RoundHalfEven(5000, RateScale));
  }
}

=== FILE: seqs.dfy ===
/**
 * Order-preserving queries over sequences: the in-memory counterpart of the
 * ORM's `filter`, `order_by` and slicing.
 */
module Seqs {

  /** The elements of s satisfying p, in their original order (`QuerySet.filter`). */
  function Filter<T>(s: seq<T>, p: T -> bool): (r: seq<T>)
    ensures |r| <= |s|
    ensures forall i :: 0 <= i < |r| ==> r[i] in s && p(r[i])
    ensures forall i :: 0 <= i < |s| && p(s[i]) ==> s[i] in r
  {
    if |s| == 0 then []
    else Filter(s[..|s| - 1], p) + (if p(s[|s| - 1]) then [s[|s| - 1]] else [])
  }

  /** Filter keeps every copy of a kept element: equal rows are each kept, not merged. */
  lemma {:induction false} FilterKeepsCopies<T>(s: seq<T>, p: T -> bool)
    ensures forall i :: 0 <= i < |s| && p(s[i]) ==> multiset(Filter(s, p))[s[i]] == multiset(s)[s[i]]
    ensures multiset(Filter(s, p)) <= multiset(s)
  {
    if |s| > 0 {
      var s' := s[..|s| - 1];
      var last := s[|s| - 1];
      FilterKeepsCopies(s', p);
      assert s == s' + [last];
      assert multiset(s) == multiset(s') + multiset{last};
      forall i | 0 <= i < |s| && p(s[i])
        ensures multiset(Filter(s, p))[s[i]] == multiset(s)[s[i]]
      {
        if s[i] !in s' {
          assert multiset(s')[s[i]] == 0;
          assert multiset(Filter(s', p))[s[i]] == 0;
        } else {
          var j :| 0 <= j < |s'| && s'[j] == s[i];
        }
      }
    }
  }

  /** Whatever Filter keeps satisfies the predicate. */
  lemma FilterKeeps<T>(s: seq<T>, p: T -> bool, x: T)
    requires x in Filter(s, p)
    ensures p(x) && x in s
  {
    var r := Filter(s, p);
    var n :| 0 <= n < |r| && r[n] == x;
  }

  /** Filtering a concatenation filters each part. */
  lemma {:induction false} FilterAppend<T>(a: seq<T>, b: seq<T>, p: T -> bool)
    ensures Filter(a + b, p) == Filter(a, p) + Filter(b, p)
    decreases |b|
  {
    if |b| == 0 {
      assert a + b == a;
    } else {
      var b' := b[..|b| - 1];
      assert (a + b)[..|a + b| - 1] == a + b';
      FilterAppend(a, b', p);
    }
  }

  /** Filtering twice by the same predicate changes nothing the second time. */
  lemma {:induction false} FilterIdempotent<T>(s: seq<T>, p: T -> bool)
    ensures Filter(Filter(s, p), p) == Filter(s, p)
  {
    if |s| > 0 {
      var s' := s[..|s| - 1];
      FilterIdempotent(s', p);
      FilterAppend(Filter(s', p), if p(s[|s| - 1]) then [s[|s| - 1]] else [], p);
      assert Filter([s[|s| - 1]], p) == (if p(s[|s| - 1]) then [s[|s| - 1]] else []) by {
        assert [s[|s| - 1]][..0] == [];
      }
    }
  }

  /** Filtering by p and by its negation splits s: every element lands in exactly one part. */
  lemma {:induction false} FilterSplit<T>(s: seq<T>, p: T -> bool, q: T -> bool)
    requires forall x :: q(x) == !p(x)
    ensures multiset(Filter(s, p)) + multiset(Filter(s, q)) == multiset(s)
  {
    if |s| > 0 {
      var s' := s[..|s| - 1];
      FilterSplit(s', p, q);
      assert s == s' + [s[|s| - 1]];
    }
  }

  /** Nothing is kept when no element satisfies p. */
  lemma {:induction false} FilterNone<T>(s: seq<T>, p: T -> bool)
    requires forall i :: 0 <= i < |s| ==> !p(s[i])
    ensures Filter(s, p) == []
  {
    if |s| > 0 {
      FilterNone(s[..|s| - 1], p);
    }
  }

  /** Filtering by p and then by q is filtering once by both. */
  lemma {:induction false} FilterCompose<T>(s: seq<T>, p: T -> bool, q: T -> bool, pq: T -> bool)
    requires forall x :: pq(x) == (p(x) && q(x))
    ensures Filter(Filter(s, p), q) == Filter(s, pq)
  {
    if |s| > 0 {
      var s' := s[..|s| - 1];
      var x := s[|s| - 1];
      FilterCompose(s', p, q, pq);
      FilterAppend(Filter(s', p), if p(x) then [x] else [], q);
      assert Filter([x], q) == (if q(x) then [x] else []) by {
        assert [x][..0] == [];
      }
    }
  }

  /** Two predicates that agree on the elements of s select the same elements. */
  lemma {:induction false} FilterSameOn<T>(s: seq<T>, p: T -> bool, q: T -> bool)
    requires forall i :: 0 <= i < |s| ==> p(s[i]) == q(s[i])
    ensures Filter(s, p) == Filter(s, q)
  {
    if |s| > 0 {
      FilterSameOn(s[..|s| - 1], p, q);
    }
  }

  /** The sum of f over s (`sum(f(x) for x in s)`). */
  function SumOf<T>(s: seq<T>, f: T -> int): int
  {
    if |s| == 0 then 0 else SumOf(s[..|s| - 1], f) + f(s[|s| - 1])
  }

  /** A sum of non-negative terms is non-negative. */
  lemma {:induction false} SumOfNonNegative<T>(s: seq<T>, f: T -> int)
    ensures (forall i :: 0 <= i < |s| ==> f(s[i]) >= 0) ==> SumOf(s, f) >= 0
  {
    if |s| > 0 {
      SumOfNonNegative(s[..|s| - 1], f);
      assert forall i :: 0 <= i < |s| - 1 ==> s[..|s| - 1][i] == s[i];
    }
  }

  /** The sum over a concatenation is the sum of the parts' sums. */
  lemma {:induction false} SumOfAppend<T>(a: seq<T>, b: seq<T>, f: T -> int)
    ensures SumOf(a + b, f) == SumOf(a, f) + SumOf(b, f)
    decreases |b|
  {
    if |b| == 0 {
      assert a + b == a;
    } else {
      var b' := b[..|b| - 1];
      assert (a + b)[..|a + b| - 1] == a + b';
      assert (a + b)[|a + b| - 1] == b[|b| - 1];
      SumOfAppend(a, b', f);
    }
  }

  /** s is ordered from the largest key to the smallest (`order_by('-key')`). */
  ghost predicate DescendingBy<T>(s: seq<T>, key: T -> int)
  {
    forall i, j :: 0 <= i < j < |s| ==> key(s[i]) >= key(s[j])
  }

  /** Inserts x into a descending sequence, before the first element whose key is not larger. */
  function InsertDesc<T>(x: T, s: seq<T>, key: T -> int): (r: seq<T>)
    requires DescendingBy(s, key)
    ensures DescendingBy(r, key)
    ensures multiset(r) == multiset(s) + multiset{x}
    ensures |r| == |s| + 1
    ensures |s| > 0 ==> r[0] == x || r[0] == s[0]
  {
    if |s| == 0 then [x]
    else if key(x) >= key(s[0]) then [x] + s
    else
      var rest := InsertDesc(x, s[1..], key);
      assert s == [s[0]] + s[1..];
      [s[0]] + rest
  }

  /** The elements of s ordered by descending key. */
  function SortDesc<T>(s: seq<T>, key: T -> int): (r: seq<T>)
    ensures DescendingBy(r, key)
    ensures multiset(r) == multiset(s)
    ensures |r| == |s|
  {
    if |s| == 0 then []
    else
      var rest := SortDesc(s[1..], key);
      assert s == [s[0]] + s[1..];
      InsertDesc(s[0], rest, key)
  }

  /** `qs[:n]`: the first n elements, or all of them when there are fewer. */
  function Take<T>(s: seq<T>, n: nat): (r: seq<T>)
    ensures |r| == if |s| < n then |s| else n
    ensures r <= s
  {
    if |s| <= n then s else s[..n]
  }
}

=== FILE: store_models.dfy ===
/**
 * Catalogue records and helpers of store/models.py: products with their
 * field defaults, the profile's business e-mail and the upload path.
 */
module StoreModels {
  import opened Base
  import opened Accounts
  import opened Text

  datatype Category = Category(id: nat, name: string)

  /** A product; `price` and `salePrice` in cents. */
  datatype Product = Product(
    id: nat,
    name: string,
    price: int,
    categoryId: nat,
    isSale: bool,
    salePrice: int,
    isAvailable: bool,
    seller: Option<Seller>)

  /** A product created with only its id and name given: every other field takes its declared default. */
  function NewProduct(id: nat, name: string): (p: Product)
    ensures p.id == id && p.name == name
    ensures p.price == 0 && p.categoryId == 1
    ensures !p.isSale && p.salePrice == 0
    ensures p.isAvailable
    ensures p.seller.None?
  {
    Product(id, name, 0, 1, false, 0, true, None)
  }

  /** Whether product p belongs to seller s (foreign keys compare by primary key). */
  predicate SoldBy(p: Product, s: Seller)
  {
    p.seller.Some? && p.seller.value.id == s.id
  }

  /** Deleting seller s: `on_delete=SET_NULL` clears the seller of that seller's products only. */
  function DeleteSeller(products: seq<Product>, s: Seller): (r: seq<Product>)
    ensures |r| == |products|
    ensures forall i :: 0 <= i < |r| ==> !SoldBy(r[i], s)
    ensures forall i :: 0 <= i < |r| ==> r[i] == products[i].(seller := r[i].seller)
    ensures forall i :: 0 <= i < |r| && !SoldBy(products[i], s) ==> r[i] == products[i]
  {
    seq(|products|, i requires 0 <= i < |products| =>
      if SoldBy(products[i], s) then products[i].(seller := None) else products[i])
  }

  /** The profile fields the model reads. */
  datatype Profile = Profile(user: User, businessEmail: Option<string>)

  /** The address used for every seller while the site runs in debug mode. */
  const TestSellerEmail: string := "test.seller@example.com"

  /** `Profile.get_business_email`: the debug address, else the business address, else the account address. */
  function BusinessEmail(profile: Profile, debug: bool): (r: string)
    ensures debug ==> r == TestSellerEmail
    ensures !debug && Truthy(profile.businessEmail) ==> r == profile.businessEmail.value
    ensures !debug && !Truthy(profile.businessEmail) ==> r == profile.user.email
  {
    if debug then TestSellerEmail
    else if Truthy(profile.businessEmail) then profile.businessEmail.value
    else profile.user.email
  }

  /**
   * Outside debug mode the address is one the seller or their account
   * entered, the business address winning when it is non-empty; it is empty
   * only when both are. In debug mode it never is.
   */
  lemma BusinessEmailEntered(profile: Profile, debug: bool)
    ensures !debug ==> BusinessEmail(profile, debug) == profile.user.email
                       || Some(BusinessEmail(profile, debug)) == profile.businessEmail
    ensures !debug ==> (BusinessEmail(profile, debug) == "" <==> !Truthy(profile.businessEmail) && profile.user.email == "")
    ensures debug ==> BusinessEmail(profile, debug) != ""
  {
  }

  /** A new product survives any seller's deletion unchanged: it has no seller to clear. */
  lemma NewProductUnaffectedByDeleteSeller(products: seq<Product>, id: nat, name: string, s: Seller)
    ensures DeleteSeller(products + [NewProduct(id, name)], s)
            == DeleteSeller(products, s) + [NewProduct(id, name)]
  {
  }

  const PicturePrefix: string := "profile_pics/user_"

  /** `user_directory_path`: uploads go under a directory named after the user's id. */
  function UserDirectoryPath(userId: nat, filename: string): (r: string)
    ensures |r| > |PicturePrefix| + |filename| + 1
    ensures r[..|PicturePrefix|] == PicturePrefix
    ensures r[|r| - |filename| - 1..] == "/" + filename
  {
    PicturePrefix + IntToString(userId) + "/" + filename
  }

  /** Two users never share an upload directory: the path determines the user id. */
  lemma UserDirectoryPathInjective(a: nat, b: nat, filename: string)
    requires UserDirectoryPath(a, filename) == UserDirectoryPath(b, filename)
    ensures a == b
  {
    var pa := UserDirectoryPath(a, filename);
    var sa := IntToString(a);
    var sb := IntToString(b);
    assert pa[|PicturePrefix|..|pa| - |filename| - 1] == sa;
    assert UserDirectoryPath(b, filename)[|PicturePrefix|..|pa| - |filename| - 1] == sb;
    IntToStringInjective(a, b);
  }
}

=== FILE: store_views.dfy ===
/**
 * Public store views of store/views.py: the newsletter sign-up redirect,
 * the public impact page, a seller's public profile and the category page.
 */
module StoreViews {
  import opened Base
  import opened Money
  import opened Text
  import opened Seqs
  import opened Accounts
  import opened StoreModels
  import opened PaymentModels
  import opened Web
  import Checkout

  /** Pages where a newsletter sign-up must not send the visitor back. */
  const DisruptivePages: seq<string> := ["cart_summary", "checkout", "process_order"]

  /** Whether the referring URL names one of the disruptive pages anywhere in it. */
  predicate Disruptive(url: string)
  {
    exists i :: 0 <= i < |DisruptivePages| && Contains(url, DisruptivePages[i])
  }

  /** The sign-up's response and whether it stores a subscriber. */
  datatype Subscription = Subscription(response: Response, saves: bool)

  /**
   * `newsletter_subscribe`: a GET goes home and stores nothing; a POST, valid
   * or not, goes back to the referer (`/` when absent) unless that is a
   * disruptive page, then home, and only a valid form is saved. No URL
   * pattern of the project routes to this view.
   */
  function NewsletterSubscribe(isPost: bool, referer: Option<string>, valid: bool): (r: Subscription)
    ensures !isPost ==> r == Subscription(Redirect(Home), false)
    ensures r.saves <==> isPost && valid
    ensures isPost ==> var url := if referer.Some? then referer.value else "/";
                       r.response == Redirect(if Disruptive(url) then Home else Referer(url))
  {
    if !isPost then Subscription(Redirect(Home), false)
    else
      var url := if referer.Some? then referer.value else "/";
      var home := Contains(url, "cart_summary") || Contains(url, "checkout") || Contains(url, "process_order");
      assert home == Disruptive(url) by {
        assert DisruptivePages[0] == "cart_summary" && DisruptivePages[1] == "checkout" && DisruptivePages[2] == "process_order";
      }
      var target := if home then Home else Referer(url);
      if valid then Subscription(Redirect(target), true) else Subscription(Redirect(target), false)
  }

  /** A sign-up never returns the visitor to a checkout page. */
  lemma NewsletterNeverReturnsToCheckout(referer: string, valid: bool)
    requires Contains(referer, "checkout")
    ensures NewsletterSubscribe(true, Some(referer), valid).response == Redirect(Home)
  {
    assert DisruptivePages[1] == "checkout";
  }

  function TxnAmount(t: ImpactTxn): int
  {
    t.amount
  }

  /** `Sum('amount')` over every ledger row, or zero for an empty ledger, in cents. */
  function TotalFunds(ledger: seq<ImpactTxn>): (total: int)
    ensures (forall i :: 0 <= i < |ledger| ==> ledger[i].amount >= 0) ==> total >= 0
  {
    SumOfNonNegative(ledger, TxnAmount);
    SumOf(ledger, TxnAmount)
  }

  /** The total depends only on the amounts: flags such as `is_active` play no part. */
  lemma {:induction false} TotalFundsOnlyAmounts(a: seq<ImpactTxn>, b: seq<ImpactTxn>)
    requires |a| == |b|
    requires forall i :: 0 <= i < |a| ==> a[i].amount == b[i].amount
    ensures TotalFunds(a) == TotalFunds(b)
    decreases |a|
  {
    if |a| > 0 {
      TotalFundsOnlyAmounts(a[..|a| - 1], b[..|b| - 1]);
    }
  }

  /** Deactivating a transaction leaves the published total unchanged. */
  lemma DeactivatedStillCounted(ledger: seq<ImpactTxn>, i: nat)
    requires i < |ledger|
    ensures TotalFunds(ledger[i := ledger[i].(isActive := false)]) == TotalFunds(ledger)
  {
    TotalFundsOnlyAmounts(ledger, ledger[i := ledger[i].(isActive := false)]);
  }

  /** Appending one row adds its amount. */
  lemma TotalFundsAppend(ledger: seq<ImpactTxn>, txn: ImpactTxn)
    ensures TotalFunds(ledger + [txn]) == TotalFunds(ledger) + txn.amount
  {
    assert (ledger + [txn])[..|ledger|] == ledger;
  }

  /**
   * The ledger row checkout records (only when the order's impact is
   * positive) raises the published total by exactly that impact.
   */
  lemma CheckoutRaisesFunds(ledger: seq<ImpactTxn>, items: seq<OrderItem>, u: Option<User>)
    requires Checkout.TotalImpact(items) > 0
    ensures var txn := ImpactTxn(Commission, Checkout.TotalImpact(items), u, true);
            TotalFunds(ledger + [txn]) == TotalFunds(ledger) + Checkout.TotalImpact(items) > TotalFunds(ledger)
  {
    var txn := ImpactTxn(Commission, Checkout.TotalImpact(items), u, true);
    TotalFundsAppend(ledger, txn);
  }

  /** `PROJECT_GOAL`: 100000.00, in cents. */
  const ProjectGoal: int := 10_000_000

  /**
   * The progress bar: the total as a percentage of the goal, capped at 100
   * and rounded to a whole percent, half to even. One percent is 100000 cents.
   */
  function ProgressPercent(totalCents: int): (r: int)
    ensures r <= 100
    ensures var capped := if totalCents < ProjectGoal then totalCents else ProjectGoal;
            IsHalfEvenRounding(capped, 100_000, r)
  {
    var capped := if totalCents < ProjectGoal then totalCents else ProjectGoal;
    var r := RoundHalfEven(capped, 100_000);
    RoundMonotonic(capped, ProjectGoal, 100_000);
    assert RoundHalfEven(ProjectGoal, 100_000) == 100;
    r
  }

  /** The bar never moves back when the total grows. */
  lemma ProgressMonotonic(a: int, b: int)
    requires a <= b
    ensures ProgressPercent(a) <= ProgressPercent(b)
  {
    var ca := if a < ProjectGoal then a else ProjectGoal;
    var cb := if b < ProjectGoal then b else ProjectGoal;
    RoundMonotonic(ca, cb, 100_000);
  }

  /** The bar is full exactly from 99.5% of the goal on (99.5 rounds to the even 100). */
  lemma ProgressFullExactly(totalCents: int)
    ensures ProgressPercent(totalCents) == 100 <==> totalCents >= 9_950_000
  {
    if totalCents >= 9_950_000 {
      assert ProgressPercent(9_950_000) == 100;
      ProgressMonotonic(9_950_000, totalCents);
    } else {
      assert ProgressPercent(9_949_999) == 99;
      ProgressMonotonic(totalCents, 9_949_999);
    }
  }

  /** The figures of the public impact page. */
  datatype ImpactPage = ImpactPage(sellerCount: nat, totalCents: int, installations: nat, progress: int)

  function ActiveSellers(sellers: seq<Seller>): seq<Seller>
  {
    Filter(sellers, (s: Seller) => s.isActive)
  }

  /** `public_impact_view`. */
  function PublicImpact(sellers: seq<Seller>, ledger: seq<ImpactTxn>): (r: ImpactPage)
    ensures r.sellerCount == |ActiveSellers(sellers)| <= |sellers|
    ensures r.totalCents == TotalFunds(ledger)
    ensures r.installations == 20
    ensures r.progress == ProgressPercent(TotalFunds(ledger)) <= 100
  {
    ImpactPage(|ActiveSellers(sellers)|, TotalFunds(ledger), 20, ProgressPercent(TotalFunds(ledger)))
  }

  function ProductId(p: Product): int
  {
    p.id
  }

  /** The products listed on a seller's page: available, of that seller, with the given sale flag. */
  predicate Listed(p: Product, s: Seller, sale: bool)
  {
    SoldBy(p, s) && p.isAvailable && p.isSale == sale
  }

  /** Listed as a filter condition. */
  function ListedBy(s: Seller, sale: bool): Product -> bool
  {
    (p: Product) => Listed(p, s, sale)
  }

  /**
   * A product created with its defaults is listed on no seller's page, and
   * its unit price at checkout is its default price, zero.
   */
  lemma NewProductUnlisted(products: seq<Product>, id: nat, name: string, s: Seller, sale: bool)
    ensures ProductList(products + [NewProduct(id, name)], s, sale) == ProductList(products, s, sale)
    ensures Checkout.UnitPrice(NewProduct(id, name)) == 0
  {
    var np := NewProduct(id, name);
    var listed := ListedBy(s, sale);
    FilterAppend(products, [np], listed);
    FilterNone([np], listed);
    assert Filter(products + [np], listed) == Filter(products, listed);
  }

  /** One of the two lists, newest product (largest id) first. */
  function ProductList(products: seq<Product>, s: Seller, sale: bool): (r: seq<Product>)
    ensures DescendingBy(r, ProductId)
    ensures multiset(r) == multiset(Filter(products, ListedBy(s, sale)))
    ensures forall p :: p in r <==> p in products && Listed(p, s, sale)
  {
    var chosen := Filter(products, ListedBy(s, sale));
    var r := SortDesc(chosen, ProductId);
    forall p
      ensures p in r <==> p in products && Listed(p, s, sale)
    {
      assert p in r <==> p in multiset(chosen);
      if p in chosen {
        FilterKeeps(chosen, ListedBy(s, sale), p);
      }
    }
    r
  }

  /** A seller's public page: the seller, the regular products and the sale products. */
  datatype SellerPage = SellerPage(seller: Seller, products: seq<Product>, saleProducts: seq<Product>)

  /** The active seller with primary key pk, if any. */
  function FindActiveSeller(sellers: seq<Seller>, pk: nat): (r: Option<Seller>)
    ensures r.Some? ==> r.value in sellers && r.value.id == pk && r.value.isActive
    ensures r.None? ==> forall s :: s in sellers ==> !(s.id == pk && s.isActive)
  {
    if |sellers| == 0 then None
    else if sellers[0].id == pk && sellers[0].isActive then Some(sellers[0])
    else
      var r := FindActiveSeller(sellers[1..], pk);
      assert forall s :: s in sellers ==> s == sellers[0] || s in sellers[1..];
      r
  }

  /** `seller_profile_public`: an unknown or inactive seller redirects home. */
  function SellerProfilePublic(pk: nat, sellers: seq<Seller>, products: seq<Product>): (r: Result<SellerPage, Page>)
    ensures r.Err? <==> forall s :: s in sellers ==> !(s.id == pk && s.isActive)
    ensures r.Err? ==> r.error == Home
    ensures r.Ok? ==> r.value.seller in sellers && r.value.seller.id == pk && r.value.seller.isActive
    ensures r.Ok? ==> r.value.products == ProductList(products, r.value.seller, false)
    ensures r.Ok? ==> r.value.saleProducts == ProductList(products, r.value.seller, true)
  {
    match FindActiveSeller(sellers, pk)
    case None => Err(Home)
    case Some(s) => Ok(SellerPage(s, ProductList(products, s, false), ProductList(products, s, true)))
  }

  /** No product appears in both lists, and every available product of the seller appears in one. */
  lemma SellerListsPartition(pk: nat, sellers: seq<Seller>, products: seq<Product>, p: Product)
    requires SellerProfilePublic(pk, sellers, products).Ok?
    ensures var page := SellerProfilePublic(pk, sellers, products).value;
            && !(p in page.products && p in page.saleProducts)
            && (p in products && SoldBy(p, page.seller) && p.isAvailable ==> p in page.products || p in page.saleProducts)
  {
  }

  /** The category named in the URL: hyphens stand for spaces. */
  function CategoryName(slug: string): (name: string)
    ensures |name| == |slug|
    ensures forall i :: 0 <= i < |name| ==> name[i] != '-'
    ensures forall i :: 0 <= i < |slug| && slug[i] != '-' ==> name[i] == slug[i]
  {
    ReplaceChar(slug, '-', ' ')
  }

  /** The category page's response and the products it lists. */
  datatype CategoryResult = CategoryResult(response: Response, products: seq<Product>)

  function NamedCategories(categories: seq<Category>, name: string): seq<Category>
  {
    Filter(categories, (c: Category) => c.name == name)
  }

  /**
   * `category`: exactly one category of that name renders its products; none
   * redirects home; several raise an uncaught error.
   */
  function CategoryView(slug: string, categories: seq<Category>, products: seq<Product>): (r: CategoryResult)
    ensures var matches := NamedCategories(categories, CategoryName(slug));
            && (|matches| == 0 ==> r == CategoryResult(Redirect(Home), []))
            && (|matches| > 1 ==> r == CategoryResult(ServerError, []))
            && (|matches| == 1 ==> r.response == Rendered && r.products == Filter(products, (p: Product) => p.categoryId == matches[0].id))
    ensures forall p :: p in r.products ==> p in products
  {
    var matches := NamedCategories(categories, CategoryName(slug));
    if |matches| == 0 then CategoryResult(Redirect(Home), [])
    else if |matches| > 1 then CategoryResult(ServerError, [])
    else
      var listed := Filter(products, (p: Product) => p.categoryId == matches[0].id);
      assert forall i :: 0 <= i < |listed| ==> listed[i] in products;
      CategoryResult(Rendered, listed)
  }

  /** A slug and its spaced form name the same category. */
  lemma SlugAndSpacesAgree(slug: string, categories: seq<Category>, products: seq<Product>)
    ensures CategoryView(slug, categories, products) == CategoryView(CategoryName(slug), categories, products)
  {
    assert CategoryName(CategoryName(slug)) == CategoryName(slug);
  }
}

=== FILE: text.dfy ===
/**
 * The few Python string operations the storefront relies on: `str(int)`,
 * `int(str)`, `str(Decimal)` at two places, substring tests, `strip`,
 * `lower` and `replace`.
 */
module Text {
  import opened Base

  /** Whether code point k is one of the ten digits whose zero is z. */
  predicate InRun(k: int, z: int)
  {
    z <= k < z + 10
  }

  /**
   * The zero of the run of ten decimal digits (general category Nd in
   * Unicode 15.0) that holds c, or `None` when c is not a decimal digit.
   * Python's `int()` accepts a digit of any of these runs, standing for its
   * offset from its run's zero.
   */
  function ZeroOf(c: char): (z: Option<int>)
    ensures z.Some? ==> InRun(c as int, z.value)
    ensures '0' <= c <= '9' ==> z == Some('0' as int)
  {
    var k := c as int;
    if InRun(k, 0x30) then Some(0x30)
    else if InRun(k, 0x660) then Some(0x660)
    else if InRun(k, 0x6F0) then Some(0x6F0)
    else if InRun(k, 0x7C0) then Some(0x7C0)
    else if InRun(k, 0x966) then Some(0x966)
    else if InRun(k, 0x9E6) then Some(0x9E6)
    else if InRun(k, 0xA66) then Some(0xA66)
    else if InRun(k, 0xAE6) then Some(0xAE6)
    else if InRun(k, 0xB66) then Some(0xB66)
    else if InRun(k, 0xBE6) then Some(0xBE6)
    else if InRun(k, 0xC66) then Some(0xC66)
    else if InRun(k, 0xCE6) then Some(0xCE6)
    else if InRun(k, 0xD66) then Some(0xD66)
    else if InRun(k, 0xDE6) then Some(0xDE6)
    else if InRun(k, 0xE50) then Some(0xE50)
    else if InRun(k, 0xED0) then Some(0xED0)
    else if InRun(k, 0xF20) then Some(0xF20)
    else if InRun(k, 0x1040) then Some(0x1040)
    else if InRun(k, 0x1090) then Some(0x1090)
    else if InRun(k, 0x17E0) then Some(0x17E0)
    else if InRun(k, 0x1810) then Some(0x1810)
    else if InRun(k, 0x1946) then Some(0x1946)
    else if InRun(k, 0x19D0) then Some(0x19D0)
    else if InRun(k, 0x1A80) then Some(0x1A80)
    else if InRun(k, 0x1A90) then Some(0x1A90)
    else if InRun(k, 0x1B50) then Some(0x1B50)
    else if InRun(k, 0x1BB0) then Some(0x1BB0)
    else if InRun(k, 0x1C40) then Some(0x1C40)
    else if InRun(k, 0x1C50) then Some(0x1C50)
    else if InRun(k, 0xA620) then Some(0xA620)
    else if InRun(k, 0xA8D0) then Some(0xA8D0)
    else if InRun(k, 0xA900) then Some(0xA900)
    else if InRun(k, 0xA9D0) then Some(0xA9D0)
    else if InRun(k, 0xA9F0) then Some(0xA9F0)
    else if InRun(k, 0xAA50) then Some(0xAA50)
    else if InRun(k, 0xABF0) then Some(0xABF0)
    else if InRun(k, 0xFF10) then Some(0xFF10)
    else if InRun(k, 0x104A0) then Some(0x104A0)
    else if InRun(k, 0x10D30) then Some(0x10D30)
    else if InRun(k, 0x11066) then Some(0x11066)
    else if InRun(k, 0x110F0) then Some(0x110F0)
    else if InRun(k, 0x11136) then Some(0x11136)
    else if InRun(k, 0x111D0) then Some(0x111D0)
    else if InRun(k, 0x112F0) then Some(0x112F0)
    else if InRun(k, 0x11450) then Some(0x11450)
    else if InRun(k, 0x114D0) then Some(0x114D0)
    else if InRun(k, 0x11650) then Some(0x11650)
    else if InRun(k, 0x116C0) then Some(0x116C0)
    else if InRun(k, 0x11730) then Some(0x11730)
    else if InRun(k, 0x118E0) then Some(0x118E0)
    else if InRun(k, 0x11950) then Some(0x11950)
    else if InRun(k, 0x11C50) then Some(0x11C50)
    else if InRun(k, 0x11D50) then Some(0x11D50)
    else if InRun(k, 0x11DA0) then Some(0x11DA0)
    else if InRun(k, 0x11F50) then Some(0x11F50)
    else if InRun(k, 0x16A60) then Some(0x16A60)
    else if InRun(k, 0x16AC0) then Some(0x16AC0)
    else if InRun(k, 0x16B50) then Some(0x16B50)
    else if InRun(k, 0x1D7CE) then Some(0x1D7CE)
    else if InRun(k, 0x1D7D8) then Some(0x1D7D8)
    else if InRun(k, 0x1D7E2) then Some(0x1D7E2)
    else if InRun(k, 0x1D7EC) then Some(0x1D7EC)
    else if InRun(k, 0x1D7F6) then Some(0x1D7F6)
    else if InRun(k, 0x1E140) then Some(0x1E140)
    else if InRun(k, 0x1E2F0) then Some(0x1E2F0)
    else if InRun(k, 0x1E4F0) then Some(0x1E4F0)
    else if InRun(k, 0x1E950) then Some(0x1E950)
    else if InRun(k, 0x1FBF0) then Some(0x1FBF0)
    else None
  }

  /** A decimal digit of any script (`str.isdecimal()` on one character). */
  predicate IsDigit(c: char)
  {
    ZeroOf(c).Some?
  }

  /** The ASCII digit for d, which is what `str()` writes. */
  function DigitChar(d: nat): (c: char)
    requires d < 10
    ensures '0' <= c <= '9' && c as int == '0' as int + d
  {
    ['0', '1', '2', '3', '4', '5', '6', '7', '8', '9'][d]
  }

  /** The value of a decimal digit: its distance from the zero of its run. */
  function DigitValue(c: char): (d: nat)
    requires IsDigit(c)
    ensures d < 10
    ensures '0' <= c <= '9' ==> d == c as int - '0' as int
  {
    (c as int - ZeroOf(c).value) as nat
  }

  /** An ASCII digit is a decimal digit worth its distance from '0'. */
  lemma AsciiDigit(c: char)
    requires '0' <= c <= '9'
    ensures IsDigit(c) && DigitValue(c) == c as int - '0' as int
  {
  }

  /** DigitValue inverts DigitChar. */
  lemma DigitCharValue(d: nat)
    requires d < 10
    ensures IsDigit(DigitChar(d)) && DigitValue(DigitChar(d)) == d
  {
    AsciiDigit(DigitChar(d));
  }

  /** Digits of other scripts count: fullwidth one is 1, and Arabic-Indic one-zero is 10. */
  lemma OtherScriptDigitsParse()
    ensures ParseInt("\U{FF11}") == Some(1)
    ensures ParseInt("-\U{0661}\U{0660}") == Some(-10)
  {
  }

  /** `int()` skips tab, newline and non-ASCII spaces such as the ideographic space. */
  lemma IntSkipsSpaces()
    ensures ParseInt("\t5\n") == Some(5)
    ensures ParseInt("\U{3000}5") == Some(5)
  {
    assert IntTrim("\t5\n") == "5" by {
      assert TrimBy("\t5\n", IsIntSpace) == TrimBy("5\n", IsIntSpace);
      assert TrimBy("5\n", IsIntSpace) == TrimBy("5", IsIntSpace);
    }
    assert IntTrim("\U{3000}5") == "5" by {
      assert TrimBy("\U{3000}5", IsIntSpace) == TrimBy("5", IsIntSpace);
    }
    AsciiDigit('5');
  }

  /**
   * The ASCII separators U+001C to U+001F are whitespace to `str.isspace()`
   * and `strip()`, but `int()` rejects a numeral next to them.
   */
  lemma IntRejectsSeparators()
    ensures ParseInt("\U{1c}5") == None
    ensures ParseInt("5\U{1f}") == None
    ensures Strip("\U{1c}5") == "5"
  {
    assert IntTrim("\U{1c}5") == "\U{1c}5";
    assert !IsDigit('\U{1c}');
    assert IntTrim("5\U{1f}") == "5\U{1f}";
    assert !IsDigit('\U{1f}');
  }

  /** Decimal digits of a natural number, most significant first, no leading zeros. */
  function NatToString(n: nat): (s: string)
    ensures |s| > 0
    ensures forall i :: 0 <= i < |s| ==> '0' <= s[i] <= '9'
  {
    if n < 10 then [DigitChar(n)] else NatToString(n / 10) + [DigitChar(n % 10)]
  }

  /** Python's `str(n)` for an int. */
  function IntToString(n: int): (s: string)
  {
    if n < 0 then "-" + NatToString(-n) else NatToString(n)
  }

  /** The value of a string of digits and underscores, underscores ignored. */
  function DigitsValue(t: string): nat
    requires forall i :: 0 <= i < |t| ==> IsDigit(t[i]) || t[i] == '_'
  {
    if |t| == 0 then 0
    else if t[|t| - 1] == '_' then DigitsValue(t[..|t| - 1])
    else 10 * DigitsValue(t[..|t| - 1]) + DigitValue(t[|t| - 1])
  }

  /**
   * The digit part Python's `int()` accepts: decimal digits, where an underscore
   * may only stand between two digits.
   */
  predicate WellFormedDigits(t: string)
  {
    && |t| > 0
    && (forall i :: 0 <= i < |t| ==> IsDigit(t[i]) || t[i] == '_')
    && (forall i :: 0 <= i < |t| && t[i] == '_' ==> 0 < i < |t| - 1 && IsDigit(t[i - 1]) && IsDigit(t[i + 1]))
  }

  /** The characters `str.isspace()` accepts, which `strip()` removes. */
  predicate IsSpace(c: char)
  {
    var k := c as int;
    || (0x09 <= k <= 0x0d) || (0x1c <= k <= 0x20) || k == 0x85 || k == 0xa0
    || k == 0x1680 || (0x2000 <= k <= 0x200a) || k == 0x2028 || k == 0x2029
    || k == 0x202f || k == 0x205f || k == 0x3000
  }

  /**
   * The characters `int()` skips around a numeral. Below code point 127 it
   * keeps only the C whitespace (tab, line feed, vertical tab, form feed,
   * carriage return and space), so the separators U+001C to U+001F that
   * `str.isspace()` accepts make `int()` fail; above it, every `isspace()`
   * character counts.
   */
  predicate IsIntSpace(c: char)
  {
    var k := c as int;
    (0x09 <= k <= 0x0d) || k == 0x20 || (k >= 127 && IsSpace(c))
  }

  /** s without the leading and trailing characters ws accepts. */
  function TrimBy(s: string, ws: char -> bool): (r: string)
    ensures |r| <= |s|
    ensures |r| > 0 ==> !ws(r[0]) && !ws(r[|r| - 1])
    ensures (forall i :: 0 <= i < |s| ==> !ws(s[i])) ==> r == s
    decreases |s|
  {
    if |s| > 0 && ws(s[0]) then TrimBy(s[1..], ws)
    else if |s| > 0 && ws(s[|s| - 1]) then TrimBy(s[..|s| - 1], ws)
    else s
  }

  /** Python's `str.strip()` with no argument. */
  function Strip(s: string): (r: string)
    ensures |r| <= |s|
    ensures |r| > 0 ==> !IsSpace(r[0]) && !IsSpace(r[|r| - 1])
    ensures (forall i :: 0 <= i < |s| ==> !IsSpace(s[i])) ==> r == s
  {
    TrimBy(s, IsSpace)
  }

  /** The whitespace `int()` skips, removed from both ends. */
  function IntTrim(s: string): (r: string)
    ensures |r| <= |s|
    ensures |r| > 0 ==> !IsIntSpace(r[0]) && !IsIntSpace(r[|r| - 1])
    ensures (forall i :: 0 <= i < |s| ==> !IsIntSpace(s[i])) ==> r == s
  {
    TrimBy(s, IsIntSpace)
  }

  /**
   * Python's `int(s)` for a string: `None` where Python raises ValueError.
   * Surrounding whitespace, one sign and underscores between digits are accepted.
   */
  function ParseInt(s: string): (r: Option<int>)
    ensures r.Some? ==> |IntTrim(s)| > 0 && IsDigit(IntTrim(s)[|IntTrim(s)| - 1])
    ensures r.Some? && r.value < 0 ==> IntTrim(s)[0] == '-'
  {
    var t := IntTrim(s);
    if |t| > 0 && (t[0] == '-' || t[0] == '+') then
      if WellFormedDigits(t[1..]) then
        var v: int := DigitsValue(t[1..]);
        Some(if t[0] == '-' then -v else v)
      else None
    else if WellFormedDigits(t) then Some(DigitsValue(t))
    else None
  }

  lemma {:induction false} NatToStringValue(n: nat)
    ensures WellFormedDigits(NatToString(n))
    ensures DigitsValue(NatToString(n)) == n
  {
    var s := NatToString(n);
    forall i | 0 <= i < |s|
      ensures IsDigit(s[i])
    {
      AsciiDigit(s[i]);
    }
    if n >= 10 {
      NatToStringValue(n / 10);
      assert s[..|s| - 1] == NatToString(n / 10);
      DigitCharValue(n % 10);
    } else {
      DigitCharValue(n);
    }
  }

  /** A digit string has no whitespace, so `int()` reads all of it. */
  lemma DigitsUnstripped(n: nat)
    ensures IntTrim(NatToString(n)) == NatToString(n)
    ensures IntTrim("-" + NatToString(n)) == "-" + NatToString(n)
  {
    var d := NatToString(n);
    var s := "-" + d;
    forall i | 0 <= i < |s|
      ensures !IsIntSpace(s[i])
    {
      if i > 0 {
        assert s[i] == d[i - 1];
      }
    }
  }

  /** `int(str(n)) == n`: a key written by `str()` is always read back by `int()`. */
  lemma IntToStringRoundTrip(n: int)
    ensures ParseInt(IntToString(n)) == Some(n)
  {
    var m: nat := if n < 0 then -n else n;
    NatToStringValue(m);
    DigitsUnstripped(m);
    var digits := NatToString(m);
    if n < 0 {
      assert ("-" + digits)[1..] == digits;
    } else {
      assert IsDigit(digits[0]);
    }
  }

  /** `str(n)` never gives the same text for two different integers. */
  lemma IntToStringInjective(a: int, b: int)
    requires IntToString(a) == IntToString(b)
    ensures a == b
  {
    IntToStringRoundTrip(a);
    IntToStringRoundTrip(b);
  }

  /** Python's `str(d)` for a Decimal with two places, given as a count of cents. */
  function CentsToString(cents: int): (s: string)
  {
    var m: nat := if cents < 0 then -cents else cents;
    var body := NatToString(m / 100) + "." + [DigitChar(m % 100 / 10), DigitChar(m % 10)];
    if cents < 0 then "-" + body else body
  }

  /** `sub` occurs in `s` starting at index i. */
  predicate OccursAt(s: string, sub: string, i: int)
  {
    0 <= i && i + |sub| <= |s| && s[i..i + |sub|] == sub
  }

  /** Whether `sub` occurs in `s` at index k or later. */
  function ContainsFrom(s: string, sub: string, k: nat): (b: bool)
    ensures b <==> exists i :: k <= i && OccursAt(s, sub, i)
    decreases |s| - k
  {
    if k + |sub| > |s| then false
    else if s[k..k + |sub|] == sub then (assert OccursAt(s, sub, k); true)
    else
      var rest := ContainsFrom(s, sub, k + 1);
      assert !OccursAt(s, sub, k);
      rest
  }

  /** `sub in s` for strings. */
  function Contains(s: string, sub: string): (b: bool)
    ensures b <==> exists i :: OccursAt(s, sub, i)
  {
    ContainsFrom(s, sub, 0)
  }

  /** Python's `str.lower()` on ASCII letters; other characters are kept. */
  function LowerAscii(s: string): (r: string)
    ensures |r| == |s|
    ensures forall i :: 0 <= i < |s| ==> !('A' <= r[i] <= 'Z')
    ensures forall i :: 0 <= i < |s| ==> !('A' <= s[i] <= 'Z') ==> r[i] == s[i]
  {
    seq(|s|, i requires 0 <= i < |s| =>
      if 'A' <= s[i] <= 'Z' then (s[i] as int - 'A' as int + 'a' as int) as char else s[i])
  }

  /** Python's `s.replace(a, b)` for single characters. */
  function ReplaceChar(s: string, a: char, b: char): (r: string)
    ensures |r| == |s|
    ensures forall i :: 0 <= i < |s| ==> r[i] == (if s[i] == a then b else s[i])
  {
    seq(|s|, i requires 0 <= i < |s| => if s[i] == a then b else s[i])
  }
}

=== FILE: web.dfy ===
/** The responses the views return, reduced to where they send the browser. */
module Web {

  /** Named URL targets of `redirect(...)`. */
  datatype Page =
    | Home
    | Login
    | SellerLogin
    | SellerDashboard
    | SellerOrderDetail(orderId: nat)
    | NotificationsList
    | AdminOrderChange(orderId: nat)
    | NotShippedDash
    | ShippedDash
    | Referer(url: string)

  datatype Response =
    | Redirect(to: Page)
    | Rendered
    | Forbidden
    | NotFound
    | BadRequest
    | ServerError
}
